=== FILE: README.md ===
# Crew roster parser — a Dafny model

This project models the roster-building core of CrewSchduler. That core turns the
text recognised on a monthly airline crew roster into one record per calendar day,
in three stages:

1. **Month skeleton** (`MonthHelper.generateMonthDays`). One fresh `DailySchedule`
   per buildable day of the month, in ascending order. Each carries its date, day
   number, weekday and "dd EEE" date string, and has an unknown duty type.
2. **Line fold** (`DataParser.parse`). The transcript is split on line feeds and
   each line is trimmed. A line is then classified, in this order, as:
   - a date marker `^(\d{2})\s+(Mon|…|Sun)`;
   - a flight line `^([A-Z0-9]+)\s+(\d{4})\s+([A-Z]{3})\s+([A-Z]{3})\s+(\d{4})([+]1)?`;
   - a line containing an off keyword ("OFF", "ADO", "Assigned day off") and/or a
     training keyword ("BC", "ETS");
   - anything else.

   An optional cursor picks the day that flight and keyword lines write into:
   - a flight line appends a leg, sets the first flight number, and sets the
     provisional duty type;
   - keyword lines set a day off or training, plus the annotation.

   The code's date guard `dayInt - 1 < count` has no lower bound, so "00" sets
   the cursor to -1 and the next write traps. The model keeps that guard as
   written (`Builder.RunAsWritten`). Its fold (`Builder.Run`, used by `Parse`)
   uses the corrected guard `1 <= dayInt <= count` instead, so an "00" marker
   is ignored (see Findings).
3. **Gap filling** (`DataParser.fillGaps`). A single left-to-right pass.
   - An unknown day after a trip day becomes a continuing layover.
   - A turnaround whose next day is a trip day becomes the start of a multi-day trip.

Modules, in dependency order:

| file | module | models |
|---|---|---|
| wrappers.dfy | `Wrappers` | `Option`, `Result` |
| text.dfy | `Text` | ASCII character classes, trimming, splitting on "\n", substring search |
| calendar.dfy | `Calendars` | the calendar services the skeleton uses, and a proleptic Gregorian instance |
| flight_leg.dfy | `FlightLegs` | `FlightLeg` and the field shapes the flight pattern admits |
| duty.dfy | `Duty` | `DutyType`, its raw values, `CrewDuty` |
| schedule.dfy | `Schedule` | `DailySchedule`, its defaults and its fixed fields |
| month_helper.dfy | `MonthHelper` | `generateMonthDays` |
| line_classifier.dfy | `LineClassifier` | the two patterns, the keyword tests, trimming plus classification |
| builder.dfy | `Builder` | the cursor fold of `parse`; the date guard as written and as corrected |
| gap_filling.dfy | `GapFilling` | `fillGaps` |
| data_parser.dfy | `DataParser` | `parse` end to end |
| roster_examples.dfy | `RosterExamples` | three worked transcripts |

The two regular expressions are written as left-to-right consumers of the line.
The date pattern matches in at most one way. The flight pattern does too, once
its optional "+1" group is taken whenever it can be: the engine is greedy, so
"0600+1" matches with the group rather than without it. The consumers take
that match. For each pattern the model proves both directions:
- every line of the pattern's shape matches, with the right captures;
- every match comes from a line of that shape.

`fillGaps` is a `while` loop over a sequence. Its result is also described by a
per-day relation, `FillGapsSpec`: day `j` depends on the already settled day
`j - 1` and on the unsettled input day `j + 1`. `parse` is a method over a left fold.
Its contract is stated through:
- `DayHistory`, the lines that reached each day;
- the last-writer-wins lemmas for duty type and annotation.

Notable behaviour of the code that the model keeps:
- **"+1" sets a multi-day trip.** A flight line whose arrival carries "+1" sets
  the day to a multi-day trip at once (DataParser.swift:61-62).
- **"+1" position.** The next-day flag is read only from "+1" directly after the
  arrival time (DataParser.swift:19, :44).
- **Training beats off.** Off and training keywords are checked one after the
  other on the same line, so training wins. An off line writes the annotation
  "OFF", and a training line writes the whole trimmed line (DataParser.swift:70-79).
- **The month is fixed.** It is December 2025 (DataParser.swift:7-8). The model
  takes year and month as parameters and states the default month as
  `DataParser.CurrentMonthSkeleton`.
- **Trip flags are free booleans.** They are three independent booleans on the
  day (DailySchedule.swift:28-30), not part of the duty type, so any combination
  can be represented.
- **Overnight flights.** Take "06 Tue", "BR51 2300 TPE LAX 0600+1" and no line
  for day 7 (`RosterExamples.OvernightExample`):
  - day 6 is a multi-day trip that is not marked as a trip start;
  - day 7 becomes a continuing layover with flight number "BR51", and its
    trip-end flag stays unset.

## Model

| member | source | states |
|---|---|---|
| Text.Trim | CrewSchduler/Data/DataParser.swift:26 | the result is the input with a run of spaces/tabs removed on each side, and it neither starts nor ends with a space or tab |
| Text.TrimIdempotent | CrewSchduler/Data/DataParser.swift:26 | trimming an already trimmed line changes nothing |
| Text.Split | CrewSchduler/Data/DataParser.swift:15 | no piece contains a line feed, and joining the pieces with line feeds gives back the transcript |
| Text.SplitJoin | CrewSchduler/Data/DataParser.swift:15 | splitting the join of line-feed-free pieces gives back exactly those pieces (the other half of the round trip) |
| Text.Contains | CrewSchduler/Data/DataParser.swift:70 | true exactly when the keyword occurs at some position of the line |
| Calendars.DaysInMonth | CrewSchduler/Data/MonthlyHelp.swift:12 | a month has 28 to 31 days, and 29 exactly for February of a leap year |
| Calendars.NormalizedMonth | CrewSchduler/Data/MonthlyHelp.swift:10 | out-of-range months roll over into neighbouring years: the result is a month 1..12 that denotes the same absolute month |
| Calendars.GregorianDateRoundTrip | CrewSchduler/Data/MonthlyHelp.swift:11 | the Gregorian instance's `date(from:)` builds every real date exactly as given and refuses a day outside its month; rebuilding a date it built gives the same date |
| Calendars.MonthsAreContiguous | CrewSchduler/Data/MonthlyHelp.swift:11-12 | the last day of a month's day range and the first of the next month are both buildable, one day apart and one weekday apart, across a year boundary too |
| Calendars.WeekdayOf | CrewSchduler/Data/MonthlyHelp.swift:20 | a weekday is a number in 1..7 |
| Calendars.MonthBaseNext | CrewSchduler/Data/MonthlyHelp.swift:20 | within a year, each month begins the day after the previous one ends, February included, leap year or not |
| Calendars.MonthBaseNextYear | CrewSchduler/Data/MonthlyHelp.swift:20 | January of the next year begins the day after December ends |
| Calendars.MarchYearLength | CrewSchduler/Data/MonthlyHelp.swift:20 | the year from one 1 March to the next has 366 days exactly when it holds a leap day, by the Gregorian rule |
| Calendars.JanuaryFirst2000IsSaturday | CrewSchduler/Data/MonthlyHelp.swift:20 | 1 January 2000 has weekday 7 (Saturday), so the numbering starts at 1 for Sunday |
| Calendars.LeapDay2024IsThursday | CrewSchduler/Data/MonthlyHelp.swift:20 | 29 February 2024 has weekday 5 (Thursday) |
| Calendars.MarchFirst1900IsThursday | CrewSchduler/Data/MonthlyHelp.swift:20 | 1 March 1900 has weekday 5 (Thursday): 1900 had no leap day |
| Calendars.NextDayNextWeekday | CrewSchduler/Data/MonthlyHelp.swift:20 | the day after a given day has the next weekday, wrapping from Saturday to Sunday |
| Calendars.TwoDigits | CrewSchduler/Data/MonthlyHelp.swift:24 | the "dd" field is two digits whose value is the day of the month |
| Calendars.DecemberFirst2025IsMonday | CrewSchduler/Data/DataParser.swift:7-8 | the first day of the default month is a Monday, formatted "01 Mon" |
| Duty.FromRawValue | CrewSchduler/Model/Duty.swift:3-10 | a raw value is recognised as a case exactly when that case writes it, so the six cases and their raw values round-trip |
| Duty.NewCrewDuty | CrewSchduler/Model/Duty.swift:12-25 | a new duty record keeps its date, date string and type, is not multi-day, and has no legs, no flight number and no annotation |
| Schedule.NewDay | CrewSchduler/Model/DailySchedule.swift:10-31 | a new day keeps its date fields and is fresh: unknown type, no flight number, no legs, no annotation, all three trip flags false |
| MonthHelper.DaysFrom | CrewSchduler/Data/MonthlyHelp.swift:17-35 | the loop's entries are strictly ascending and each is built by the calendar; a day number has an entry exactly when it lies in the range and its date can be built; there are at most as many entries as the range has days |
| MonthHelper.GenerateMonthDays | CrewSchduler/Data/MonthlyHelp.swift:5-37 | the result is empty when the first of the month or the month's range cannot be formed; otherwise its day numbers are exactly the buildable days of the range, ascending, each entry fresh and built by the calendar |
| MonthHelper.DaysFromComplete | CrewSchduler/Data/MonthlyHelp.swift:17-35 | when every day of the range can be built, there is exactly one entry per day and entry `k` is for day `lower + k` |
| MonthHelper.FullMonthSkeleton | CrewSchduler/Data/MonthlyHelp.swift:5-37 | a calendar that builds days 1..n of one month gives n entries, entry `k` for day `k + 1` and dated that day |
| MonthHelper.GregorianSkeletonDays | CrewSchduler/Data/MonthlyHelp.swift:5-37 | a Gregorian skeleton has exactly as many entries as the month has days, entry `k` for day `k + 1`, dated in that month |
| MonthHelper.GregorianSkeletonWeekdays | CrewSchduler/Data/MonthlyHelp.swift:20 | every weekday is in 1..7 and is the real weekday of the entry's date; consecutive entries advance by one weekday modulo 7 |
| LineClassifier.DateLineMatches | CrewSchduler/Data/DataParser.swift:18 | every line of two digits, spaces and a weekday abbreviation (then anything) matches the date pattern (the consumer `MatchDate`), with the day its digits spell |
| LineClassifier.DateMatchIsDateLine | CrewSchduler/Data/DataParser.swift:18 | every match `MatchDate` finds comes from a line of that shape, with that day |
| LineClassifier.MatchFlight | CrewSchduler/Data/DataParser.swift:19 | a leg produced by the flight pattern has a nonempty `[A-Z0-9]` number, three-letter airports and four-digit times |
| LineClassifier.FlightLineMatches | CrewSchduler/Data/DataParser.swift:42-54 | every line of the flight shape matches and yields exactly its leg: dep time from group 2, airports from groups 3 and 4, arr time from group 5, next-day exactly when "+1" follows the arrival time |
| LineClassifier.FlightMatchIsFlightLine | CrewSchduler/Data/DataParser.swift:19 | every flight match comes from a line of the flight shape that spells the leg it yields |
| LineClassifier.DateLineIsNotFlight | CrewSchduler/Data/DataParser.swift:29-42 | a line the date pattern matches never matches the flight pattern |
| LineClassifier.Classify | CrewSchduler/Data/DataParser.swift:29-79 | a date marker names a day 0..99, a leg is well formed, and a keyword line has at least one keyword flag set |
| LineClassifier.ReadIgnoresPadding | CrewSchduler/Data/DataParser.swift:26 | spaces and tabs around a line never change how it reads, and reading the text of a read line gives the same reading |
| LineClassifier.ReadAllSplitJoin | CrewSchduler/Data/DataParser.swift:15-26 | reading the line-feed join of some line-feed-free lines gives exactly the readings of those lines, in order |
| LineClassifier.DateLineClassified | CrewSchduler/Data/DataParser.swift:29-35 | a line of the date shape is a date marker whatever follows, so it never reaches the leg or keyword checks |
| LineClassifier.FlightLineClassified | CrewSchduler/Data/DataParser.swift:42-66 | a line of the flight shape is that leg, whatever keywords it contains |
| LineClassifier.KeywordLineClassified | CrewSchduler/Data/DataParser.swift:70-79 | a line is a keyword line exactly when it fits neither pattern and contains some keyword; the two flags say which lists matched |
| LineClassifier.FormattedDateIsMarker | CrewSchduler/Data/MonthlyHelp.swift:23-25 | a day's "dd EEE" date string is already trimmed and reads as the date marker of that day |
| Builder.ApplyKind | CrewSchduler/Data/DataParser.swift:47-79 | a line changes none of the day's fixed fields, and only flight and keyword lines change anything |
| Builder.Step | CrewSchduler/Data/DataParser.swift:29-79 | with the corrected date guard `1 <= day <= count` (not the written `day - 1 < count`), one iteration keeps the cursor on an existing day; only a date marker moves the cursor, and a marker changes no day; only the day under the cursor can change |
| Builder.Run | CrewSchduler/Data/DataParser.swift:23-80 | with the corrected date guard, the fold keeps the number of days and every day's date, day, weekday and date string |
| Builder.RunFromAppend | CrewSchduler/Data/DataParser.swift:25 | folding two batches of lines one after the other is folding their concatenation |
| Builder.CursorIsLastAcceptedMarker | CrewSchduler/Data/DataParser.swift:23-36 | the cursor is unset exactly while no accepted date marker has been read; otherwise it is the last accepted marker's day minus one |
| Builder.LinesBeforeFirstMarkerIgnored | CrewSchduler/Data/DataParser.swift:39 | lines read before the first accepted date marker have no effect on any day or on the cursor |
| Builder.RunCursor | CrewSchduler/Data/DataParser.swift:29-36 | the cursor depends only on the number of days and on the date markers |
| Builder.RunIsPerDay | CrewSchduler/Data/DataParser.swift:39-79 | each day ends as its starting value with exactly the non-marker lines read while the cursor was on it applied, in order; no other line touches it |
| Builder.LegsAppendedInOrder | CrewSchduler/Data/DataParser.swift:47-58 | a day's legs are its starting legs followed by one leg per flight line, in line order; a day without a flight number takes the first leg's, and a set flight number never changes |
| Builder.LastWriterDecidesDuty | CrewSchduler/Data/DataParser.swift:61-79 | the last line that writes a duty type decides it: "+1" flight gives multi-day trip, other flight turnaround, training keyword training (even beside an off keyword), off keyword day off; with no such line the type is kept |
| Builder.LastWriterDecidesMetaInfo | CrewSchduler/Data/DataParser.swift:70-79 | the last keyword line decides the annotation ("OFF" for off alone, the trimmed line for training); flight lines never touch it |
| Builder.LegsMeanKnownDuty | CrewSchduler/Data/DataParser.swift:61-65 | a day that received a flight line never ends with an unknown type |
| Builder.ZeroDayMarkerTraps | CrewSchduler/Data/DataParser.swift:32-33 | with the guard as written, "00 Mon" then "OFF" sets the cursor to -1 and the keyword write subscripts the array at -1, on any day array |
| Builder.ZeroDayMarkerIgnored | CrewSchduler/Data/DataParser.swift:32 | with the corrected guard the same transcript leaves the days untouched and the cursor unset |
| Builder.AsWrittenAgreesWithoutZeroMarker | CrewSchduler/Data/DataParser.swift:32 | when no date marker names day 0, the guard as written never traps and gives the corrected fold's result |
| Builder.AsWrittenAgreesUnlessTrap | CrewSchduler/Data/DataParser.swift:29-79 | on any lines, whenever the guard as written does not trap it leaves every day as the corrected fold does; its cursor is the corrected one or below the first day |
| GapFilling.FillGaps | CrewSchduler/Data/DataParser.swift:86-117 | the pass's result fits the per-day description; it keeps length, fixed fields, legs, annotation and trip-end flag; days other than unknowns and turnarounds are unchanged; a turnaround is promoted exactly when the input's next day is a trip day |
| GapFilling.SpecEffects | CrewSchduler/Data/DataParser.swift:89-113 | any result of the per-day description keeps the fixed fields, legs and annotation; it changes only unknowns (into a layover after a settled trip day) and turnarounds |
| GapFilling.FillGapsDeterministic | CrewSchduler/Data/DataParser.swift:86-117 | the per-day description has at most one result, so it pins down the pass |
| GapFilling.LayoverIffTripGap | CrewSchduler/Data/DataParser.swift:89-104 | an unknown day becomes a layover exactly when an earlier input trip day is followed only by unknown days up to it; it then takes that trip day's flight number and the continuing flag, and otherwise stays as it was; day 0 is never filled |
| GapFilling.TripStartIffNextIsTrip | CrewSchduler/Data/DataParser.swift:108-113 | a turnaround becomes a multi-day trip exactly when the input's next day is a trip day; every day the pass turns into a multi-day trip was a turnaround, now a trip start |
| GapFilling.PromotionReadsUnsettledNextDay | CrewSchduler/Data/DataParser.swift:108-109 | with two turnarounds before a multi-day trip only the second is promoted, although after the pass the first is followed by a trip day |
| DataParser.Parse | CrewSchduler/Data/DataParser.swift:10-84 | with the corrected date guard, the result is the gap-filling pass over the fold into the skeleton; it has the skeleton's length and fixed fields; each day's legs are the flight lines that reached it, in order; a day with legs shows its first leg's number and is never unknown |
| DataParser.ParsedDay | CrewSchduler/Data/DataParser.swift:47-58 | in any parse result, a day's legs are the flight lines that reached it; with legs, its flight number is the first leg's and its type is known |
| DataParser.ParsedDuty | CrewSchduler/Data/DataParser.swift:61-79 | in any parse result, the last duty-writing line that reached a day decides its type, except that a turnaround may become a multi-day trip; a day no such line reached is unknown or a layover |
| DataParser.ParsedMetaInfo | CrewSchduler/Data/DataParser.swift:70-79 | in any parse result, the last keyword line that reached a day decides its annotation; a day no keyword line reached has none |
| DataParser.CurrentMonthSkeleton | CrewSchduler/Data/DataParser.swift:7-12 | the skeleton of December 2025 has 31 days, entry `k` dated the `k + 1`-th, and the first is a Monday written "01 Mon" |
| DataParser.OwnDateStringSelectsDay | CrewSchduler/Data/MonthlyHelp.swift:23-25 | in a Gregorian month, each day's own date string read as a transcript line is an accepted date marker for that very day |
| DataParser.GregorianIdsDistinct | CrewSchduler/Model/DailySchedule.swift:11 | the days of a Gregorian skeleton have pairwise different identities (date strings) |
| RosterExamples.TurnaroundExample | CrewSchduler/Data/DataParser.swift:42-65 | after gap filling, "05 Mon", "BR18 0900 TPE OKA 1100" with no trip on day 6 makes day 5 a turnaround, not a trip start, with flight number "BR18" and exactly that leg |
| RosterExamples.DayOffExample | CrewSchduler/Data/DataParser.swift:70-73 | after gap filling, "10 Fri", "OFF" makes day 10 a day off annotated "OFF" with no legs |
| RosterExamples.OvernightExample | CrewSchduler/Data/DataParser.swift:89-113 | "06 Tue", "BR51 2300 TPE LAX 0600+1" and nothing for day 7 leave day 6 a multi-day trip without the trip-start flag; day 7 becomes a continuing layover with flight "BR51" and no trip-end flag |

## Left out

- OCR (CrewSchduler/Data/OCRManager.swift) is not part of this model: the transcript is an input string.
- The user interface (CrewSchduler/UI/) is not part of this model.
- UUID identifiers of `FlightLeg` and `CrewDuty` are not modelled. Two legs with the same data are therefore equal here, whereas the synthesised `Hashable` would tell them apart.
- Foundation's `Date` is modelled as a civil date (`CivilDate`).
- `Calendar.current` and `DateFormatter` are a `Calendar` parameter of the skeleton generator. The general lemmas hold for any calendar.
- The concrete Gregorian instance has these limits:
  - it is proleptic, with no Julian switch;
  - it is lenient about months and strict about days;
  - it writes English weekday names, with no locale;
  - a day outside 0..99 gets an unpadded "dd".
- The static `currentYear`/`currentMonth` become parameters of `Parse`. The default month is stated only by `DataParser.CurrentMonthSkeleton`.
- Character classes are ASCII only:
  - `\d` is '0'..'9';
  - `\s` is space, tab, line feed, carriage return, vertical tab and form feed;
  - `.whitespaces` trimming is space and tab.

  Unicode digits and spaces, and grapheme-cluster semantics, are left out.
- `components(separatedBy: "\n")` is modelled as a split at every line-feed character. How Foundation treats a "\r\n" pair is left out.
- DataParser.Parse: uses the corrected date guard `1 <= dayInt <= count`, not the written `dayInt - 1 < count`, so it does not reproduce the trap on an "00" marker; the guard as written is `Builder.RunAsWritten`, related to the corrected fold by `Builder.AsWrittenAgreesUnlessTrap`.
- `Builder.ZeroDayMarkerTraps`: models the Swift runtime trap on `fullSchedule[-1]` as an `Err(IndexOutOfRange(-1))` result, not as a process abort.

## Findings

| source | as written | input that shows it | evidently intended | confidence | as-written member | corrected member |
|---|---|---|---|---|---|---|
| CrewSchduler/Data/DataParser.swift:32 | the date guard `dayInt - 1 < fullSchedule.count` has no lower bound, so day 0 sets the cursor to -1 | transcript "00 Mon" followed by "OFF" (or any flight line): the write subscripts `fullSchedule[-1]` and traps | accept a marker only when `1 <= dayInt <= count` | not executed | Builder.ZeroDayMarkerTraps (over Builder.RunAsWritten) | Builder.ZeroDayMarkerIgnored (over Builder.Run, used by DataParser.Parse) |

=== FILE: builder.dfy ===
/** The line-driven part of `DataParser.parse`: a left fold over the trimmed
    transcript lines that carries an optional cursor into the day array.
    A date marker moves the cursor; a flight or keyword line writes into the
    day under the cursor; any other line, and any line read before the
    cursor is first set, has no effect. */
module Builder {
  import opened Wrappers
  import opened Text
  import opened Duty
  import opened FlightLegs
  import opened Schedule
  import opened LineClassifier

  /** What the parser's loop carries from one line to the next. */
  datatype State = State(days: seq<DailySchedule>, cursor: Option<int>) {
    predicate Valid() {
      cursor.Some? ==> 0 <= cursor.value < |days|
    }
  }

  /** The date-marker guard: day `d` selects slot `d - 1` when that slot exists. */
  predicate Accepts(count: int, d: int) {
    1 <= d <= count
  }

  /** Line kinds that write into the day under the cursor. */
  predicate Writes(kind: LineKind) {
    kind.Leg? || kind.Keywords?
  }

  /** The effect of a classified line on the day under the cursor. A flight
      line appends its leg, keeps the day's first flight number and sets the
      provisional duty; an off keyword marks a day off and a training keyword,
      checked after it, marks training and keeps the whole line. */
  function ApplyKind(day: DailySchedule, kind: LineKind, trimmed: string): (r: DailySchedule)
    ensures SameFrame(day, r)
    ensures !Writes(kind) ==> r == day
  {
    match kind
    case Leg(leg) =>
      day.(legs := day.legs + [leg],
           flightNumber := if day.flightNumber.None? then Some(leg.flightNumber) else day.flightNumber,
           duty := if leg.isNextDay then MultiDayTrip else Turnaround)
    case Keywords(off, training) =>
      var marked := if off then day.(duty := DayOff, metaInfo := Some("OFF")) else day;
      if training then marked.(duty := Training, metaInfo := Some(trimmed)) else marked
    case _ => day
  }

  /** The effect of one read line on the day under the cursor. */
  function ApplyLine(day: DailySchedule, line: ReadLine): (r: DailySchedule)
    ensures SameFrame(day, r)
  {
    ApplyKind(day, line.kind, line.text)
  }

  /** Whether a line is a date marker (accepted or not). */
  predicate IsMarker(line: ReadLine) {
    line.kind.DateMarker?
  }

  /** Whether a line is a date marker the guard accepts for `count` days. */
  predicate IsAcceptedMarker(count: int, line: ReadLine) {
    line.kind.DateMarker? && Accepts(count, line.kind.day)
  }

  /** One iteration of the parser's loop. Only the day under the cursor can
      change, only a date marker can move the cursor, and the cursor always
      names an existing day. */
  function Step(st: State, line: ReadLine): (r: State)
    requires st.Valid()
    ensures r.Valid()
    ensures SameFrames(st.days, r.days)
    ensures IsMarker(line) ==> r.days == st.days
    ensures !IsMarker(line) ==> r.cursor == st.cursor
    ensures forall j :: 0 <= j < |st.days| && st.cursor != Some(j) ==> r.days[j] == st.days[j]
  {
    match line.kind
    case DateMarker(d) =>
      if Accepts(|st.days|, d) then st.(cursor := Some(d - 1)) else st
    case kind =>
      match st.cursor
      case None => st
      case Some(k) => if Writes(kind) then st.(days := st.days[k := ApplyKind(st.days[k], kind, line.text)]) else st
  }

  /** The loop over `lines`, in order, from state `st`. */
  function RunFrom(st: State, lines: seq<ReadLine>): (r: State)
    requires st.Valid()
    ensures r.Valid()
    ensures SameFrames(st.days, r.days)
    decreases |lines|
  {
    if lines == [] then st
    else
      var prev := RunFrom(st, lines[..|lines| - 1]);
      SameFramesTransitive(st.days, prev.days, Step(prev, lines[|lines| - 1]).days);
      Step(prev, lines[|lines| - 1])
  }

  /** The loop from a fresh cursor over the given day array. */
  function Run(days: seq<DailySchedule>, lines: seq<ReadLine>): (r: State)
    ensures r.Valid()
    ensures SameFrames(days, r.days)
  {
    RunFrom(State(days, None), lines)
  }

  /** Running two batches of lines is running their concatenation. */
  lemma {:induction false} RunFromAppend(st: State, p: seq<ReadLine>, q: seq<ReadLine>)
    requires st.Valid()
    ensures RunFrom(st, p + q) == RunFrom(RunFrom(st, p), q)
    decreases |q|
  {
    if q == [] {
      assert p + q == p;
    } else {
      var q' := q[..|q| - 1];
      assert (p + q)[..|p + q| - 1] == p + q';
      RunFromAppend(st, p, q');
    }
  }

  // ---------------------------------------------------------------------
  // Where the cursor is

  /** Line `i` is the last accepted date marker of `lines`. */
  predicate LastAcceptedMarker(count: int, lines: seq<ReadLine>, i: int) {
    && 0 <= i < |lines|
    && IsAcceptedMarker(count, lines[i])
    && forall j :: i < j < |lines| ==> !IsAcceptedMarker(count, lines[j])
  }

  /** The cursor is unset exactly while no accepted marker has been read, and
      otherwise sits on the day named by the last accepted marker. */
  lemma CursorIsLastAcceptedMarker(st: State, lines: seq<ReadLine>)
    requires st.Valid() && st.cursor.None?
    ensures RunFrom(st, lines).cursor.None? <==> forall i :: 0 <= i < |lines| ==> !IsAcceptedMarker(|st.days|, lines[i])
    ensures forall i :: LastAcceptedMarker(|st.days|, lines, i) ==>
              RunFrom(st, lines).cursor == Some(lines[i].kind.day - 1)
  {
    RunCursor(st, lines);
    CursorAfterLastAcceptedMarker(|st.days|, lines);
  }

  /** The same, for the cursor computed from the markers alone. */
  lemma {:induction false} CursorAfterLastAcceptedMarker(count: int, lines: seq<ReadLine>)
    ensures CursorAfter(count, lines).None? <==> forall i :: 0 <= i < |lines| ==> !IsAcceptedMarker(count, lines[i])
    ensures forall i :: LastAcceptedMarker(count, lines, i) ==> CursorAfter(count, lines) == Some(lines[i].kind.day - 1)
    decreases |lines|
  {
    if lines != [] {
      var n := |lines| - 1;
      var prefix := lines[..n];
      CursorAfterLastAcceptedMarker(count, prefix);
      forall i | LastAcceptedMarker(count, lines, i)
        ensures CursorAfter(count, lines) == Some(lines[i].kind.day - 1)
      {
        if i < n {
          assert LastAcceptedMarker(count, prefix, i);
        }
      }
      if CursorAfter(count, lines).None? {
        forall i | 0 <= i < |lines| ensures !IsAcceptedMarker(count, lines[i]) {
          if i < n { assert lines[i] == prefix[i]; }
        }
      }
    }
  }

  /** Lines read before the first accepted date marker change nothing: the
      parse of `pre + post` is the parse of `post`. */
  lemma {:induction false} LinesBeforeFirstMarkerIgnored(days: seq<DailySchedule>, pre: seq<ReadLine>, post: seq<ReadLine>)
    requires forall i :: 0 <= i < |pre| ==> !IsAcceptedMarker(|days|, pre[i])
    ensures Run(days, pre + post) == Run(days, post)
  {
    var st := State(days, None);
    PrefixWithoutMarkerIsIdle(st, pre);
    RunFromAppend(st, pre, post);
  }

  lemma {:induction false} PrefixWithoutMarkerIsIdle(st: State, pre: seq<ReadLine>)
    requires st.Valid() && st.cursor.None?
    requires forall i :: 0 <= i < |pre| ==> !IsAcceptedMarker(|st.days|, pre[i])
    ensures RunFrom(st, pre) == st
    decreases |pre|
  {
    if pre != [] {
      PrefixWithoutMarkerIsIdle(st, pre[..|pre| - 1]);
    }
  }

  // ---------------------------------------------------------------------
  // Which lines reach which day

  /** The cursor after `lines`, computed from the date markers alone. */
  function CursorAfter(count: int, lines: seq<ReadLine>): Option<int>
    decreases |lines|
  {
    if lines == [] then None
    else
      var line := lines[|lines| - 1];
      if IsAcceptedMarker(count, line) then Some(line.kind.day - 1)
      else CursorAfter(count, lines[..|lines| - 1])
  }

  /** The parse's cursor depends on the number of days and the date markers
      only. */
  lemma {:induction false} RunCursor(st: State, lines: seq<ReadLine>)
    requires st.Valid() && st.cursor.None?
    ensures RunFrom(st, lines).cursor == CursorAfter(|st.days|, lines)
    decreases |lines|
  {
    if lines != [] {
      RunCursor(st, lines[..|lines| - 1]);
    }
  }

  /** The non-marker lines read while the cursor is on day `k`, in order. */
  function DayHistory(count: int, lines: seq<ReadLine>, k: int): seq<ReadLine>
    decreases |lines|
  {
    if lines == [] then []
    else
      var prefix := lines[..|lines| - 1];
      var line := lines[|lines| - 1];
      DayHistory(count, prefix, k) + (if CursorAfter(count, prefix) == Some(k) && !IsMarker(line) then [line] else [])
  }

  /** A day's lines applied to it one after another. */
  function ApplyAll(day: DailySchedule, history: seq<ReadLine>): DailySchedule
    decreases |history|
  {
    if history == [] then day
    else ApplyLine(ApplyAll(day, history[..|history| - 1]), history[|history| - 1])
  }

  /** Each day of the parse is its starting value with exactly the lines read
      while the cursor was on it applied, in order; lines read under any other
      cursor never touch it. */
  lemma {:induction false} RunIsPerDay(days: seq<DailySchedule>, lines: seq<ReadLine>, k: int)
    requires 0 <= k < |days|
    ensures Run(days, lines).days[k] == ApplyAll(days[k], DayHistory(|days|, lines, k))
    decreases |lines|
  {
    if lines != [] {
      var n := |lines| - 1;
      var prefix := lines[..n];
      var line := lines[n];
      RunIsPerDay(days, prefix, k);
      RunCursor(State(days, None), prefix);
      var prev := Run(days, prefix);
      var hist := DayHistory(|days|, prefix, k);
      assert Run(days, lines) == Step(prev, line);
      StepOnDay(prev, line, k);
      if CursorAfter(|days|, prefix) == Some(k) && !IsMarker(line) {
        assert DayHistory(|days|, lines, k) == hist + [line];
        assert (hist + [line])[..|hist|] == hist;
        assert ApplyAll(days[k], hist + [line]) == ApplyLine(ApplyAll(days[k], hist), line);
      } else {
        assert DayHistory(|days|, lines, k) == hist;
      }
    }
  }

  /** What one iteration does to day `k`: it applies the line when the
      cursor is on `k` and the line is not a marker, and otherwise leaves the
      day alone. */
  lemma StepOnDay(st: State, line: ReadLine, k: int)
    requires st.Valid() && 0 <= k < |st.days|
    ensures Step(st, line).days[k] ==
              if st.cursor == Some(k) && !IsMarker(line) then ApplyLine(st.days[k], line) else st.days[k]
  {
  }

  // ---------------------------------------------------------------------
  // What a day's lines leave on it

  /** The legs of the flight lines among `history`, in order. */
  function LegsIn(history: seq<ReadLine>): seq<FlightLeg>
    decreases |history|
  {
    if history == [] then []
    else
      var line := history[|history| - 1];
      LegsIn(history[..|history| - 1]) + (match line.kind case Leg(leg) => [leg] case _ => [])
  }

  /** Legs are only ever appended: a day ends up with its starting legs
      followed by one leg per flight line, in line order. The day's flight
      number, if it had none, is the first such leg's. */
  lemma {:induction false} LegsAppendedInOrder(day: DailySchedule, history: seq<ReadLine>)
    ensures ApplyAll(day, history).legs == day.legs + LegsIn(history)
    ensures day.flightNumber.Some? ==> ApplyAll(day, history).flightNumber == day.flightNumber
    ensures day.flightNumber.None? ==>
              ApplyAll(day, history).flightNumber ==
                (if LegsIn(history) == [] then None else Some(LegsIn(history)[0].flightNumber))
    decreases |history|
  {
    if history != [] {
      var prefix := history[..|history| - 1];
      LegsAppendedInOrder(day, prefix);
      var legs := LegsIn(prefix);
      match history[|history| - 1].kind
      case Leg(leg) =>
        assert LegsIn(history) == legs + [leg];
        assert day.legs + legs + [leg] == day.legs + (legs + [leg]);
      case _ =>
    }
  }

  /** The duty type a classified line writes, if any. */
  function WrittenDuty(line: ReadLine): Option<DutyType> {
    match line.kind
    case Leg(leg) => Some(if leg.isNextDay then MultiDayTrip else Turnaround)
    case Keywords(off, training) =>
      if training then Some(Training) else if off then Some(DayOff) else None
    case _ => None
  }

  /** One line sets the duty type it writes, or leaves the type alone. */
  lemma LineDuty(day: DailySchedule, line: ReadLine)
    ensures ApplyLine(day, line).duty == if WrittenDuty(line).Some? then WrittenDuty(line).value else day.duty
  {
  }

  /** Line `i` is the last line of `history` that writes a duty type. */
  predicate LastDutyWriter(history: seq<ReadLine>, i: int) {
    && 0 <= i < |history|
    && WrittenDuty(history[i]).Some?
    && forall j :: i < j < |history| ==> WrittenDuty(history[j]).None?
  }

  /** The last line that writes a duty type decides the day's duty type: a
      next-day flight makes a multi-day trip, any other flight a turnaround,
      a training keyword training (even beside an off keyword), an off
      keyword a day off. With no such line the day keeps its type. */
  lemma {:induction false} LastWriterDecidesDuty(day: DailySchedule, history: seq<ReadLine>)
    ensures (forall i :: 0 <= i < |history| ==> WrittenDuty(history[i]).None?) ==>
              ApplyAll(day, history).duty == day.duty
    ensures forall i :: LastDutyWriter(history, i) ==> ApplyAll(day, history).duty == WrittenDuty(history[i]).value
    decreases |history|
  {
    if history != [] {
      var n := |history| - 1;
      var prefix := history[..n];
      LastWriterDecidesDuty(day, prefix);
      var before := ApplyAll(day, prefix);
      assert ApplyAll(day, history) == ApplyLine(before, history[n]);
      LineDuty(before, history[n]);
      forall i | LastDutyWriter(history, i)
        ensures ApplyAll(day, history).duty == WrittenDuty(history[i]).value
      {
        if i < n {
          assert WrittenDuty(history[n]).None?;
          assert LastDutyWriter(prefix, i);
        }
      }
      if forall i :: 0 <= i < |history| ==> WrittenDuty(history[i]).None? {
        assert forall i :: 0 <= i < n ==> WrittenDuty(prefix[i]).None?;
      }
    }
  }

  /** The annotation a classified line writes, if any: a training keyword
      keeps the whole trimmed line, an off keyword alone writes "OFF". */
  function WrittenMetaInfo(line: ReadLine): Option<string> {
    match line.kind
    case Keywords(off, training) =>
      if training then Some(line.text) else if off then Some("OFF") else None
    case _ => None
  }

  /** One line sets the annotation it writes, or leaves it alone. */
  lemma LineMetaInfo(day: DailySchedule, line: ReadLine)
    ensures ApplyLine(day, line).metaInfo == if WrittenMetaInfo(line).Some? then WrittenMetaInfo(line) else day.metaInfo
  {
  }

  /** Line `i` is the last line of `history` that writes an annotation. */
  predicate LastMetaInfoWriter(history: seq<ReadLine>, i: int) {
    && 0 <= i < |history|
    && WrittenMetaInfo(history[i]).Some?
    && forall j :: i < j < |history| ==> WrittenMetaInfo(history[j]).None?
  }

  /** The last keyword line decides the day's annotation; flight lines never
      touch it, and with no keyword line the day keeps its annotation. */
  lemma {:induction false} LastWriterDecidesMetaInfo(day: DailySchedule, history: seq<ReadLine>)
    ensures (forall i :: 0 <= i < |history| ==> WrittenMetaInfo(history[i]).None?) ==>
              ApplyAll(day, history).metaInfo == day.metaInfo
    ensures forall i :: LastMetaInfoWriter(history, i) ==> ApplyAll(day, history).metaInfo == WrittenMetaInfo(history[i])
    decreases |history|
  {
    if history != [] {
      var n := |history| - 1;
      var prefix := history[..n];
      LastWriterDecidesMetaInfo(day, prefix);
      var before := ApplyAll(day, prefix);
      assert ApplyAll(day, history) == ApplyLine(before, history[n]);
      LineMetaInfo(before, history[n]);
      forall i | LastMetaInfoWriter(history, i)
        ensures ApplyAll(day, history).metaInfo == WrittenMetaInfo(history[i])
      {
        if i < n {
          assert WrittenMetaInfo(history[n]).None?;
          assert LastMetaInfoWriter(prefix, i);
        }
      }
      if forall i :: 0 <= i < |history| ==> WrittenMetaInfo(history[i]).None? {
        assert forall i :: 0 <= i < n ==> WrittenMetaInfo(prefix[i]).None?;
      }
    }
  }

  /** A day that received a flight line never ends with an unknown duty
      type: every later writer sets a known type too. */
  lemma {:induction false} LegsMeanKnownDuty(day: DailySchedule, history: seq<ReadLine>)
    requires LegsIn(history) != []
    ensures ApplyAll(day, history).duty != Unknown
    decreases |history|
  {
    var n := |history| - 1;
    var prefix := history[..n];
    if !history[n].kind.Leg? {
      assert LegsIn(history) == LegsIn(prefix) + [];
      LegsMeanKnownDuty(day, prefix);
    }
  }

  // ---------------------------------------------------------------------
  // The guard as the source writes it

  /** What the Swift runtime does on an array subscript out of bounds. */
  datatype Trap = IndexOutOfRange(index: int)

  /** The guard at DataParser.swift:32, `dayInt - 1 < fullSchedule.count`,
      which has no lower bound. */
  predicate AcceptsAsWritten(count: int, d: int) {
    d - 1 < count
  }

  /** One iteration with the guard as written: a day-0 marker sets the cursor
      to -1, and the next line that writes through it traps. */
  function StepAsWritten(st: State, line: ReadLine): Result<State, Trap>
  {
    match line.kind
    case DateMarker(d) =>
      Ok(if AcceptsAsWritten(|st.days|, d) then st.(cursor := Some(d - 1)) else st)
    case kind =>
      match st.cursor
      case None => Ok(st)
      case Some(k) =>
        if !Writes(kind) then Ok(st)
        else if 0 <= k < |st.days| then Ok(st.(days := st.days[k := ApplyKind(st.days[k], kind, line.text)]))
        else Err(IndexOutOfRange(k))
  }

  function RunAsWritten(days: seq<DailySchedule>, lines: seq<ReadLine>): Result<State, Trap>
    decreases |lines|
  {
    if lines == [] then Ok(State(days, None))
    else
      match RunAsWritten(days, lines[..|lines| - 1])
      case Err(e) => Err(e)
      case Ok(st) => StepAsWritten(st, lines[|lines| - 1])
  }

  lemma ReadZeroDayMarker()
    ensures Read("00 Mon") == ReadLine("00 Mon", DateMarker(0))
  {
    TrimUntouched("00 Mon");
    DateLineClassified("00 Mon", "00", " ", "Mon", "");
  }

  lemma ReadOff()
    ensures Read("OFF") == ReadLine("OFF", Keywords(true, false))
  {
    TrimUntouched("OFF");
    OffFitsNoPattern();
    OffKeywordsOfOff();
  }

  lemma OffFitsNoPattern()
    ensures MatchDate("OFF").None? && MatchFlight("OFF").None?
  {
    TakeWhileOf("OFF", "", IsCodeChar);
    assert "OFF" + "" == "OFF";
    assert SpacedField("", 4, IsClockTime).None?;
  }

  lemma OffKeywordsOfOff()
    ensures ContainsAny("OFF", OffKeywords) && !ContainsAny("OFF", TrainingKeywords)
  {
    assert OccursAt("OFF", OffKeywords[0], 0);
    AbsentFirstChar("OFF", "BC");
    AbsentFirstChar("OFF", "ETS");
  }

  /** Reading a two-line transcript reads each line. */
  lemma ReadPair(a: string, b: string)
    ensures ReadAll([a, b]) == [Read(a), Read(b)]
  {
    var lines := [a, b];
    assert lines[0] == a && lines[1] == b;
    PairOf(ReadAll(lines), Read(a), Read(b));
  }

  lemma PairOf<T>(r: seq<T>, x: T, y: T)
    requires |r| == 2 && r[0] == x && r[1] == y
    ensures r == [x, y]
  {
  }

  /** The transcript "00 Mon" then "OFF", read. */
  lemma ReadZeroDayTranscript()
    ensures ReadAll(["00 Mon", "OFF"]) == ZeroDayLines()
  {
    ReadPair("00 Mon", "OFF");
    ReadZeroDayMarker();
    ReadOff();
  }

  function ZeroDayLines(): seq<ReadLine> {
    [ReadLine("00 Mon", DateMarker(0)), ReadLine("OFF", Keywords(true, false))]
  }

  /** A "00 Mon" marker followed by an "OFF" line traps on any day array,
      even a full month: the marker passes the guard with cursor -1 and the
      keyword line subscripts the array at -1. */
  lemma ZeroDayMarkerTraps(days: seq<DailySchedule>)
    ensures RunAsWritten(days, ReadAll(["00 Mon", "OFF"])) == Err(IndexOutOfRange(-1))
  {
    ReadZeroDayTranscript();
    ZeroDayLinesTrap(days);
  }

  lemma ZeroDayLinesTrap(days: seq<DailySchedule>)
    ensures RunAsWritten(days, ZeroDayLines()) == Err(IndexOutOfRange(-1))
  {
    var lines := ZeroDayLines();
    assert lines[..1] == [lines[0]];
    assert lines[..1][..0] == [];
    assert RunAsWritten(days, lines[..1][..0]) == Ok(State(days, None));
    var st := State(days, Some(-1));
    assert RunAsWritten(days, lines[..1]) == Ok(st);
    assert StepAsWritten(st, lines[1]) == Err(IndexOutOfRange(-1));
  }

  /** With the corrected guard the same transcript is harmless: the day-0
      marker is ignored, so no cursor is ever set and nothing is written. */
  lemma ZeroDayMarkerIgnored(days: seq<DailySchedule>)
    ensures Run(days, ReadAll(["00 Mon", "OFF"])) == State(days, None)
  {
    ReadZeroDayTranscript();
    var lines := ZeroDayLines();
    assert lines[..1] == [lines[0]];
    assert lines[..1][..0] == [];
    assert Run(days, lines[..1][..0]) == State(days, None);
    assert Run(days, lines[..1]) == State(days, None);
  }

  /** The two guards differ only on day 0: a transcript whose markers all
      name a day of at least 1 runs without trapping and gives the corrected
      parse. */
  lemma {:induction false} AsWrittenAgreesWithoutZeroMarker(days: seq<DailySchedule>, lines: seq<ReadLine>)
    requires forall i :: 0 <= i < |lines| && IsMarker(lines[i]) ==> lines[i].kind.day >= 1
    ensures RunAsWritten(days, lines) == Ok(Run(days, lines))
    decreases |lines|
  {
    if lines != [] {
      var n := |lines| - 1;
      AsWrittenAgreesWithoutZeroMarker(days, lines[..n]);
      var st := Run(days, lines[..n]);
      assert IsMarker(lines[n]) ==> lines[n].kind.day >= 1;
      assert StepAsWritten(st, lines[n]) == Ok(Step(st, lines[n]));
    }
  }

  /** On any day array and any lines: whenever the guard as written does not
      trap, it leaves every day exactly as the corrected guard does, and its
      cursor is the corrected one or lies below the first day. */
  lemma {:induction false} AsWrittenAgreesUnlessTrap(days: seq<DailySchedule>, lines: seq<ReadLine>)
    ensures RunAsWritten(days, lines).Ok? ==>
              var w := RunAsWritten(days, lines).value;
              var c := Run(days, lines);
              w.days == c.days && (w.cursor == c.cursor || (w.cursor.Some? && w.cursor.value < 0))
    decreases |lines|
  {
    if lines != [] {
      var n := |lines| - 1;
      AsWrittenAgreesUnlessTrap(days, lines[..n]);
      assert Run(days, lines) == Step(Run(days, lines[..n]), lines[n]);
      match RunAsWritten(days, lines[..n])
      case Err(_) =>
      case Ok(st) =>
        assert RunAsWritten(days, lines) == StepAsWritten(st, lines[n]);
    }
  }
}

=== FILE: calendar.dfy ===
/** The calendar services the month skeleton needs (`Calendar.current` and
    `DateFormatter` in the source), as an explicit parameter, together with a
    proleptic Gregorian instance of it. */
module Calendars {
  import opened Wrappers
  import opened Text

  /** A calendar date; stands for Foundation's opaque `Date`. */
  datatype CivilDate = CivilDate(year: int, month: int, day: int)

  /** The half-open range `lower..<upper` of day numbers in a month. */
  datatype DayRange = DayRange(lower: int, upper: int)

  /** What the skeleton generator asks of `Calendar.current`:
      `date(from:)` (which may fail), `range(of: .day, in: .month, for:)`
      (which may fail), `component(.weekday, from:)`, and the "dd EEE"
      date formatter. */
  datatype Calendar = Calendar(
    dateFrom: (int, int, int) -> Option<CivilDate>,
    dayRange: CivilDate -> Option<DayRange>,
    weekdayOf: CivilDate -> int,
    format: CivilDate -> string)

  // ---------------------------------------------------------------------
  // Proleptic Gregorian calendar

  predicate IsLeapYear(y: int) {
    y % 4 == 0 && (y % 100 != 0 || y % 400 == 0)
  }

  function DaysInMonth(y: int, m: int): (n: int)
    requires 1 <= m <= 12
    ensures 28 <= n <= 31
    ensures n == 29 <==> m == 2 && IsLeapYear(y)
  {
    if m == 2 then (if IsLeapYear(y) then 29 else 28)
    else if m == 4 || m == 6 || m == 9 || m == 11 then 30
    else 31
  }

  /** Date components with an out-of-range month roll over into the
      neighbouring years, as Foundation's lenient components do
      (month 13 of 2025 is January 2026, month 0 is December of the year
      before). */
  function NormalizedMonth(year: int, month: int): (r: (int, int))
    ensures 1 <= r.1 <= 12
    ensures 12 * r.0 + r.1 == 12 * year + month
  {
    (year + (month - 1) / 12, (month - 1) % 12 + 1)
  }

  /** Days from 1970-01-01 to the given date (negative before it). */
  function DaysFromCivil(y: int, m: int, d: int): int
    requires 1 <= m <= 12
  {
    MonthBase(y, m) + d - 1
  }

  /** Days from 1970-01-01 to the first day of month `m` of year `y`. */
  function MonthBase(y: int, m: int): int
    requires 1 <= m <= 12
  {
    var y' := if m <= 2 then y - 1 else y;
    var era := y' / 400;
    var yoe := y' - era * 400;
    var mp := (m + 9) % 12;
    var doy := (153 * mp + 2) / 5;
    var doe := yoe * 365 + yoe / 4 - yoe / 100 + doy;
    era * 146097 + doe - 719468
  }

  /** Weekday numbered as Foundation numbers it: 1 = Sunday … 7 = Saturday.
      1970-01-01 was a Thursday (5). */
  function WeekdayOf(date: CivilDate): (w: int)
    ensures 1 <= w <= 7
  {
    var (y, m) := NormalizedMonth(date.year, date.month);
    (DaysFromCivil(y, m, date.day) + 4) % 7 + 1
  }

  /** `date(from:)`: the month is normalized, the day must exist in it. */
  function GregorianDate(year: int, month: int, day: int): (r: Option<CivilDate>)
    ensures r.Some? <==> 1 <= day <= DaysInMonth(NormalizedMonth(year, month).0, NormalizedMonth(year, month).1)
    ensures r.Some? ==> r.value == CivilDate(NormalizedMonth(year, month).0, NormalizedMonth(year, month).1, day)
  {
    var (y, m) := NormalizedMonth(year, month);
    if 1 <= day <= DaysInMonth(y, m) then Some(CivilDate(y, m, day)) else None
  }

  function GregorianRange(date: CivilDate): (r: Option<DayRange>)
    ensures r.Some?
    ensures r.value.lower == 1
    ensures r.value.upper - 1 == DaysInMonth(NormalizedMonth(date.year, date.month).0, NormalizedMonth(date.year, date.month).1)
  {
    var (y, m) := NormalizedMonth(date.year, date.month);
    Some(DayRange(1, DaysInMonth(y, m) + 1))
  }

  /** English abbreviated weekday names, indexed by weekday - 1. */
  const WeekdayNames: seq<string> := ["Sun", "Mon", "Tue", "Wed", "Thu", "Fri", "Sat"]

  /** The two-digit, zero-padded day of month ("dd"). */
  function TwoDigits(n: nat): (s: string)
    requires n < 100
    ensures |s| == 2 && IsDigit(s[0]) && IsDigit(s[1])
    ensures 10 * DigitValue(s[0]) + DigitValue(s[1]) == n
  {
    [DigitChar(n / 10), DigitChar(n % 10)]
  }

  /** Decimal digits of `n`, without padding. */
  function Decimal(n: nat): (s: string)
    ensures |s| >= 1
    decreases n
  {
    if n < 10 then [DigitChar(n)] else Decimal(n / 10) + [DigitChar(n % 10)]
  }

  /** The "dd EEE" date formatter in an English locale, e.g. "17 Fri": the
      day of month zero-padded to two digits, a space, the weekday name. */
  function FormatDayAndWeekday(date: CivilDate): (s: string)
  {
    var name := WeekdayNames[WeekdayOf(date) - 1];
    if 0 <= date.day < 100 then TwoDigits(date.day) + " " + name
    else if date.day >= 100 then Decimal(date.day) + " " + name
    else "-" + Decimal(-date.day) + " " + name
  }

  const Gregorian: Calendar := Calendar(GregorianDate, GregorianRange, WeekdayOf, FormatDayAndWeekday)

  /** Consecutive days of one month are consecutive weekdays, wrapping from
      Saturday (7) to Sunday (1). */
  lemma NextDayNextWeekday(y: int, m: int, d: int)
    ensures WeekdayOf(CivilDate(y, m, d + 1)) == WeekdayOf(CivilDate(y, m, d)) % 7 + 1
  {
    var (y', m') := NormalizedMonth(y, m);
    var n := DaysFromCivil(y', m', d);
    assert DaysFromCivil(y', m', d + 1) == n + 1;
  }

  /** Days from 1970-01-01 to 1 March of year `y`; `MonthBase` counts the
      months of a year from March, so that February comes last. */
  function MarchFirst(y: int): int {
    var era := y / 400;
    var yoe := y - era * 400;
    era * 146097 + yoe * 365 + yoe / 4 - yoe / 100 - 719468
  }

  /** Days from 1 March to the first of month `m`, counting from March. */
  function DaysSinceMarch(m: int): int
    requires 1 <= m <= 12
  {
    (153 * ((m + 9) % 12) + 2) / 5
  }

  lemma MonthBaseFromMarch(y: int, m: int)
    requires 1 <= m <= 12
    ensures MonthBase(y, m) == MarchFirst(if m <= 2 then y - 1 else y) + DaysSinceMarch(m)
  {
  }

  /** Stepping a year count by one adds a leap day exactly at multiples of
      four and drops one exactly at multiples of a hundred. */
  lemma LeapCountSteps(k: int)
    ensures k / 4 - (k - 1) / 4 == if k % 4 == 0 then 1 else 0
    ensures k / 100 - (k - 1) / 100 == if k % 100 == 0 then 1 else 0
  {
  }

  /** Adding whole eras of 400 years keeps the residues the leap rule reads. */
  lemma EraResidues(era: int, k: int)
    requires 0 <= k < 400
    ensures (era * 400 + k) / 400 == era && (era * 400 + k) % 400 == k
    ensures (era * 400 + k) % 4 == k % 4 && (era * 400 + k) % 100 == k % 100
  {
    assert era * 400 + k == (era * 100) * 4 + k;
    assert era * 400 + k == (era * 4) * 100 + k;
  }

  /** The year from 1 March of `y` to 1 March of `y + 1` has 366 days
      exactly when it holds the leap day of `y + 1`. */
  lemma MarchYearLength(y: int)
    ensures MarchFirst(y + 1) - MarchFirst(y) == if IsLeapYear(y + 1) then 366 else 365
  {
    var era := y / 400;
    var yoe := y - era * 400;
    EraResidues(era, yoe);
    if yoe == 399 {
      EraResidues(era + 1, 0);
      assert y + 1 == (era + 1) * 400 + 0;
    } else {
      var k := yoe + 1;
      EraResidues(era, k);
      assert y + 1 == era * 400 + k;
      LeapCountSteps(k);
    }
  }

  /** Outside February, a month's length is the distance between the
      starts of it and of the next month, counted from March. */
  lemma DaysSinceMarchStep(y: int, m: int)
    requires 1 <= m <= 11 && m != 2
    ensures DaysSinceMarch(m + 1) - DaysSinceMarch(m) == DaysInMonth(y, m)
  {
  }

  /** Month `m` ends the day before month `m + 1` of the same year begins. */
  lemma MonthBaseNext(y: int, m: int)
    requires 1 <= m <= 11
    ensures MonthBase(y, m) + DaysInMonth(y, m) == MonthBase(y, m + 1)
  {
    if m == 2 {
      FebruaryToMarch(y);
    } else {
      MonthBaseFromMarch(y, m);
      MonthBaseFromMarch(y, m + 1);
      DaysSinceMarchStep(y, m);
    }
  }

  /** February ends the day before March begins, whatever the year. */
  lemma FebruaryToMarch(y: int)
    ensures MonthBase(y, 2) + DaysInMonth(y, 2) == MonthBase(y, 3)
  {
    MonthBaseFromMarch(y, 2);
    MonthBaseFromMarch(y, 3);
    MarchYearLength(y - 1);
  }

  /** December ends the day before January of the next year begins. */
  lemma MonthBaseNextYear(y: int)
    ensures MonthBase(y, 12) + DaysInMonth(y, 12) == MonthBase(y + 1, 1)
  {
    MonthBaseFromMarch(y, 12);
    MonthBaseFromMarch(y + 1, 1);
  }

  /** Month `month + 1` of `year` is the month after the rolled-over
      `(year, month)`. */
  lemma NormalizedNext(year: int, month: int)
    ensures var (y, m) := NormalizedMonth(year, month);
            NormalizedMonth(year, month + 1) == (if m < 12 then (y, m + 1) else (y + 1, 1))
  {
    var (y, m) := NormalizedMonth(year, month);
    var (y', m') := NormalizedMonth(year, month + 1);
    assert 12 * y' + m' == 12 * y + m + 1;
    if m < 12 {
      assert 12 * (y' - y) == m + 1 - m';
    } else {
      assert 12 * (y' - y - 1) == 1 - m';
    }
  }

  /** A month already in 1..12 is its own rolled-over month. */
  lemma NormalizedIdentity(year: int, month: int)
    requires 1 <= month <= 12
    ensures NormalizedMonth(year, month) == (year, month)
  {
    var (y, m) := NormalizedMonth(year, month);
    assert 12 * (y - year) == month - m;
  }

  /** Two dates one day apart are one weekday apart. */
  lemma WeekdayFollows(a: CivilDate, b: CivilDate)
    requires 1 <= a.month <= 12 && 1 <= b.month <= 12
    requires DaysFromCivil(b.year, b.month, b.day) == DaysFromCivil(a.year, a.month, a.day) + 1
    ensures WeekdayOf(b) == WeekdayOf(a) % 7 + 1
  {
    NormalizedIdentity(a.year, a.month);
    NormalizedIdentity(b.year, b.month);
  }

  /** `date(from:)` is exact on valid dates: it builds every real date as
      given, and rebuilding a date it built gives the same date. */
  lemma GregorianDateRoundTrip(year: int, month: int, day: int)
    ensures 1 <= month <= 12 && 1 <= day <= DaysInMonth(year, month) ==>
              GregorianDate(year, month, day) == Some(CivilDate(year, month, day))
    ensures 1 <= month <= 12 && !(1 <= day <= DaysInMonth(year, month)) ==>
              GregorianDate(year, month, day) == None
    ensures GregorianDate(year, month, day).Some? ==>
              var d := GregorianDate(year, month, day).value;
              GregorianDate(d.year, d.month, d.day) == Some(d)
  {
    if 1 <= month <= 12 {
      NormalizedIdentity(year, month);
    }
    if GregorianDate(year, month, day).Some? {
      var d := GregorianDate(year, month, day).value;
      NormalizedIdentity(d.year, d.month);
    }
  }

  /** Months follow one another without gap or overlap: the last day of a
      month's range and the first day of the next month are both buildable,
      one day apart, and one weekday apart. */
  lemma MonthsAreContiguous(year: int, month: int)
    ensures var last := GregorianRange(CivilDate(year, month, 1)).value.upper - 1;
            GregorianDate(year, month, last).Some? && GregorianDate(year, month + 1, 1).Some? &&
            var a := GregorianDate(year, month, last).value;
            var b := GregorianDate(year, month + 1, 1).value;
            1 <= a.month <= 12 && 1 <= b.month <= 12 &&
            DaysFromCivil(b.year, b.month, b.day) == DaysFromCivil(a.year, a.month, a.day) + 1 &&
            WeekdayOf(b) == WeekdayOf(a) % 7 + 1
  {
    var (y, m) := NormalizedMonth(year, month);
    NormalizedNext(year, month);
    var last := DaysInMonth(y, m);
    assert GregorianRange(CivilDate(year, month, 1)).value.upper - 1 == last;
    var a := CivilDate(y, m, last);
    var b := GregorianDate(year, month + 1, 1).value;
    if m < 12 {
      MonthBaseNext(y, m);
    } else {
      MonthBaseNextYear(y);
    }
    WeekdayFollows(a, b);
  }

  /** A date's weekday, read off the first day of its month. */
  lemma WeekdayFromMonthBase(date: CivilDate, base: int)
    requires 1 <= date.month <= 12 && MonthBase(date.year, date.month) == base
    ensures WeekdayOf(date) == (base + date.day + 3) % 7 + 1
  {
    NormalizedIdentity(date.year, date.month);
  }

  /** 1 January 2000 was a Saturday. */
  lemma JanuaryFirst2000IsSaturday(date: CivilDate)
    requires date == CivilDate(2000, 1, 1)
    ensures WeekdayOf(date) == 7
  {
    WeekdayFromMonthBase(date, 10957);
  }

  /** 29 February 2024 was a Thursday. */
  lemma LeapDay2024IsThursday(date: CivilDate)
    requires date == CivilDate(2024, 2, 29)
    ensures WeekdayOf(date) == 5
  {
    WeekdayFromMonthBase(date, 19754);
  }

  /** 1 March 1900 was a Thursday: 1900 is not a leap year. */
  lemma MarchFirst1900IsThursday(date: CivilDate)
    requires date == CivilDate(1900, 3, 1)
    ensures WeekdayOf(date) == 5
  {
    WeekdayFromMonthBase(date, -25508);
  }

  /** The first day of December 2025, the source's default month, is a Monday. */
  lemma DecemberFirst2025IsMonday(date: CivilDate)
    requires date == CivilDate(2025, 12, 1)
    ensures WeekdayOf(date) == 2
    ensures FormatDayAndWeekday(date) == "01 Mon"
  {
    WeekdayFromMonthBase(date, 20423);
    FirstMondayFormat(date);
  }

  /** The first of a month that falls on a Monday is written "01 Mon". */
  lemma FirstMondayFormat(date: CivilDate)
    requires date.day == 1 && WeekdayOf(date) == 2
    ensures FormatDayAndWeekday(date) == "01 Mon"
  {
    assert TwoDigits(1) == "01";
  }
}

=== FILE: data_parser.dfy ===
/** The parser's entry point (`DataParser.parse`): build the month skeleton,
    split the recognised text into lines, fold the lines into the days, and
    run the gap-filling pass over the result. */
module DataParser {
  import opened Wrappers
  import opened Text
  import opened Calendars
  import opened Duty
  import opened Schedule
  import opened MonthHelper
  import opened LineClassifier
  import opened Builder
  import opened GapFilling

  /** The month the parser fills in (`currentYear`, `currentMonth`). */
  const CurrentYear := 2025
  const CurrentMonth := 12

  /** The skeleton the parse starts from. */
  function Skeleton(cal: Calendar, year: int, month: int): seq<DailySchedule> {
    GenerateMonthDays(cal, year, month)
  }

  /** The transcript as the loop sees it: split on line feeds, each line
      trimmed and classified. */
  function Transcript(ocrText: string): seq<ReadLine> {
    ReadAll(Split(ocrText))
  }

  /** The lines that reached day `k` of the skeleton, in order. */
  function HistoryOf(cal: Calendar, year: int, month: int, ocrText: string, k: int): seq<ReadLine> {
    DayHistory(|Skeleton(cal, year, month)|, Transcript(ocrText), k)
  }

  /** `result` is what the parse returns for `ocrText` in the given month:
      the gap-filling pass applied to the fold of the transcript into the
      skeleton. */
  predicate ParseSpec(cal: Calendar, year: int, month: int, ocrText: string, result: seq<DailySchedule>) {
    FillGapsSpec(Run(Skeleton(cal, year, month), Transcript(ocrText)).days, result)
  }

  /** `parse(ocrText:)`. One entry per skeleton day with the skeleton's
      date fields; each day's legs are exactly the flight lines read while
      the cursor was on it, in order, and a day with legs shows the flight
      number of its first leg and never stays unknown. */
  method Parse(cal: Calendar, year: int, month: int, ocrText: string) returns (result: seq<DailySchedule>)
    ensures ParseSpec(cal, year, month, ocrText, result)
    ensures SameFrames(Skeleton(cal, year, month), result)
    ensures forall k :: 0 <= k < |result| ==> result[k].legs == LegsIn(HistoryOf(cal, year, month, ocrText, k))
    ensures forall k :: 0 <= k < |result| && LegsIn(HistoryOf(cal, year, month, ocrText, k)) != [] ==>
              && result[k].flightNumber == Some(LegsIn(HistoryOf(cal, year, month, ocrText, k))[0].flightNumber)
              && result[k].duty != Unknown
  {
    var skeleton := Skeleton(cal, year, month);
    var lines := Transcript(ocrText);
    var parsed := Run(skeleton, lines);
    result := FillGaps(parsed.days);
    SameFramesTransitive(skeleton, parsed.days, result);
    forall k | 0 <= k < |result|
      ensures result[k].legs == LegsIn(HistoryOf(cal, year, month, ocrText, k))
      ensures LegsIn(HistoryOf(cal, year, month, ocrText, k)) != [] ==>
                && result[k].flightNumber == Some(LegsIn(HistoryOf(cal, year, month, ocrText, k))[0].flightNumber)
                && result[k].duty != Unknown
    {
      ParsedDay(cal, year, month, ocrText, result, k);
    }
  }

  /** The skeleton of the static month, December 2025, in the Gregorian
      calendar (or of any year and month that roll over to it): thirty-one
      days, day `k` dated the `k + 1`-th, the first a Monday written
      "01 Mon". */
  lemma CurrentMonthSkeleton(year: int, month: int)
    requires NormalizedMonth(year, month) == (CurrentYear, CurrentMonth)
    ensures var days := Skeleton(Gregorian, year, month);
            && |days| == 31
            && (forall k :: 0 <= k < 31 ==> days[k].date == CivilDate(2025, 12, k + 1) && days[k].day == k + 1)
            && days[0].weekday == 2 && days[0].dateString == "01 Mon"
  {
    var days := Skeleton(Gregorian, year, month);
    assert DaysInMonth(2025, 12) == 31;
    GregorianSkeletonDays(year, month);
    FirstOfCurrentMonth(days[0], year, month);
  }

  lemma FirstOfCurrentMonth(e: DailySchedule, year: int, month: int)
    requires BuiltBy(Gregorian, year, month, e)
    requires e.date == CivilDate(2025, 12, 1)
    ensures e.weekday == 2 && e.dateString == "01 Mon"
  {
    var cal := Gregorian;
    assert e.dateString == cal.format(e.date);
    assert e.weekday == cal.weekdayOf(e.date);
    DecemberFirst2025IsMonday(e.date);
  }

  /** Day `k` of any parse result, read off the lines that reached it. */
  lemma ParsedDay(cal: Calendar, year: int, month: int, ocrText: string, result: seq<DailySchedule>, k: int)
    requires ParseSpec(cal, year, month, ocrText, result)
    requires 0 <= k < |result|
    ensures result[k].legs == LegsIn(HistoryOf(cal, year, month, ocrText, k))
    ensures LegsIn(HistoryOf(cal, year, month, ocrText, k)) != [] ==>
              && result[k].flightNumber == Some(LegsIn(HistoryOf(cal, year, month, ocrText, k))[0].flightNumber)
              && result[k].duty != Unknown
  {
    var skeleton := Skeleton(cal, year, month);
    var lines := Transcript(ocrText);
    var parsed := Run(skeleton, lines).days;
    var hist := HistoryOf(cal, year, month, ocrText, k);
    assert BuiltBy(cal, year, month, skeleton[k]);
    RunIsPerDay(skeleton, lines, k);
    LegsAppendedInOrder(skeleton[k], hist);
    assert SettledAt(parsed, result, k);
    if LegsIn(hist) != [] {
      LegsMeanKnownDuty(skeleton[k], hist);
    }
  }

  /** The duty type of day `k` of a parse: the last line that writes a duty
      type decides it, except that a turnaround may be promoted to a
      multi-day trip; a day no such line reached is unknown or, after a
      trip day, a layover. */
  lemma ParsedDuty(cal: Calendar, year: int, month: int, ocrText: string, result: seq<DailySchedule>, k: int)
    requires ParseSpec(cal, year, month, ocrText, result)
    requires 0 <= k < |result|
    ensures var hist := HistoryOf(cal, year, month, ocrText, k);
            forall i :: LastDutyWriter(hist, i) ==>
              if WrittenDuty(hist[i]).value == Turnaround
              then result[k].duty == Turnaround || result[k].duty == MultiDayTrip
              else result[k].duty == WrittenDuty(hist[i]).value
    ensures var hist := HistoryOf(cal, year, month, ocrText, k);
            (forall i :: 0 <= i < |hist| ==> WrittenDuty(hist[i]).None?) ==>
              result[k].duty == Unknown || result[k].duty == Layover
  {
    var skeleton := Skeleton(cal, year, month);
    var lines := Transcript(ocrText);
    var hist := HistoryOf(cal, year, month, ocrText, k);
    assert BuiltBy(cal, year, month, skeleton[k]);
    RunIsPerDay(skeleton, lines, k);
    FilledDuty(Run(skeleton, lines).days, result, k, skeleton[k], hist);
  }

  /** `ParsedDuty` for one day whose starting value is fresh. */
  lemma FilledDuty(parsed: seq<DailySchedule>, result: seq<DailySchedule>, k: int, day: DailySchedule, hist: seq<ReadLine>)
    requires FillGapsSpec(parsed, result) && 0 <= k < |parsed|
    requires IsFresh(day) && parsed[k] == ApplyAll(day, hist)
    ensures forall i :: LastDutyWriter(hist, i) ==>
              if WrittenDuty(hist[i]).value == Turnaround
              then result[k].duty == Turnaround || result[k].duty == MultiDayTrip
              else result[k].duty == WrittenDuty(hist[i]).value
    ensures (forall i :: 0 <= i < |hist| ==> WrittenDuty(hist[i]).None?) ==>
              result[k].duty == Unknown || result[k].duty == Layover
  {
    LastWriterDecidesDuty(day, hist);
    assert SettledAt(parsed, result, k);
  }

  /** The annotation of day `k` of a parse: the last keyword line that
      reached it decides it, and a day no keyword line reached has none. */
  lemma ParsedMetaInfo(cal: Calendar, year: int, month: int, ocrText: string, result: seq<DailySchedule>, k: int)
    requires ParseSpec(cal, year, month, ocrText, result)
    requires 0 <= k < |result|
    ensures var hist := HistoryOf(cal, year, month, ocrText, k);
            forall i :: LastMetaInfoWriter(hist, i) ==> result[k].metaInfo == WrittenMetaInfo(hist[i])
    ensures var hist := HistoryOf(cal, year, month, ocrText, k);
            (forall i :: 0 <= i < |hist| ==> WrittenMetaInfo(hist[i]).None?) ==> result[k].metaInfo == None
  {
    var skeleton := Skeleton(cal, year, month);
    var lines := Transcript(ocrText);
    var hist := HistoryOf(cal, year, month, ocrText, k);
    assert BuiltBy(cal, year, month, skeleton[k]);
    RunIsPerDay(skeleton, lines, k);
    FilledMetaInfo(Run(skeleton, lines).days, result, k, skeleton[k], hist);
  }

  /** `ParsedMetaInfo` for one day whose starting value is fresh. */
  lemma FilledMetaInfo(parsed: seq<DailySchedule>, result: seq<DailySchedule>, k: int, day: DailySchedule, hist: seq<ReadLine>)
    requires FillGapsSpec(parsed, result) && 0 <= k < |parsed|
    requires IsFresh(day) && parsed[k] == ApplyAll(day, hist)
    ensures forall i :: LastMetaInfoWriter(hist, i) ==> result[k].metaInfo == WrittenMetaInfo(hist[i])
    ensures (forall i :: 0 <= i < |hist| ==> WrittenMetaInfo(hist[i]).None?) ==> result[k].metaInfo == None
  {
    LastWriterDecidesMetaInfo(day, hist);
    assert SettledAt(parsed, result, k);
  }

  /** In a Gregorian month every day's own date string, read as a
      transcript line, is a date marker the guard accepts and that puts the
      cursor on that very day. */
  lemma OwnDateStringSelectsDay(year: int, month: int, k: int)
    requires 0 <= k < |Skeleton(Gregorian, year, month)|
    ensures var days := Skeleton(Gregorian, year, month);
            && Read(days[k].dateString) == ReadLine(days[k].dateString, DateMarker(k + 1))
            && IsAcceptedMarker(|days|, Read(days[k].dateString))
  {
    var days := Skeleton(Gregorian, year, month);
    GregorianSkeletonDays(year, month);
    var ym := NormalizedMonth(year, month);
    assert BuiltBy(Gregorian, year, month, days[k]);
    assert days[k].date == CivilDate(ym.0, ym.1, k + 1);
    FormattedDateIsMarker(days[k].date);
  }

  /** A Gregorian skeleton's days have pairwise different identities: each
      date string reads back as its own day's marker. */
  lemma GregorianIdsDistinct(year: int, month: int)
    ensures var days := Skeleton(Gregorian, year, month);
            forall i, j :: 0 <= i < j < |days| ==> days[i].Id() != days[j].Id()
  {
    var days := Skeleton(Gregorian, year, month);
    forall i, j | 0 <= i < j < |days|
      ensures days[i].Id() != days[j].Id()
    {
      OwnDateStringSelectsDay(year, month, i);
      OwnDateStringSelectsDay(year, month, j);
    }
  }
}

=== FILE: duty.dfy ===
/** The duty classification of a day (`DutyType`) and the stand-alone
    `CrewDuty` record. */
module Duty {
  import opened Wrappers
  import opened Calendars
  import opened FlightLegs

  /** A closed set of six payload-free cases; whether a trip day is the
      start, the end or the middle of a trip is not part of the case but is
      kept in separate flags on the day. */
  datatype DutyType = DayOff | Turnaround | MultiDayTrip | Training | Layover | Unknown

  /** The `String` raw value of each case, the form `Codable` writes. */
  function RawValue(t: DutyType): string
  {
    match t
    case DayOff => "dayOff"
    case Turnaround => "turnaround"
    case MultiDayTrip => "multiDayTrip"
    case Training => "training"
    case Layover => "layover"
    case Unknown => "unknown"
  }

  /** `DutyType(rawValue:)`: recognises exactly the six raw values, each as
      the case that writes it. */
  function FromRawValue(s: string): (r: Option<DutyType>)
    ensures forall t :: r == Some(t) <==> RawValue(t) == s
  {
    if s == "dayOff" then Some(DayOff)
    else if s == "turnaround" then Some(Turnaround)
    else if s == "multiDayTrip" then Some(MultiDayTrip)
    else if s == "training" then Some(Training)
    else if s == "layover" then Some(Layover)
    else if s == "unknown" then Some(Unknown)
    else None
  }

  /** A duty record as the source declares it, without its random `id`. */
  datatype CrewDuty = CrewDuty(
    date: CivilDate,
    dateString: string,
    dutyType: DutyType,
    primaryFlightNumber: Option<string>,
    isMultiDay: bool,
    legs: seq<FlightLeg>,
    metaInfo: Option<string>)

  /** The memberwise initializer given only the fields without defaults. */
  function NewCrewDuty(date: CivilDate, dateString: string, dutyType: DutyType): (d: CrewDuty)
    ensures d.date == date && d.dateString == dateString && d.dutyType == dutyType
    ensures !d.isMultiDay && d.legs == []
    ensures d.primaryFlightNumber == None && d.metaInfo == None
  {
    CrewDuty(date, dateString, dutyType, None, false, [], None)
  }
}

=== FILE: flight_leg.dfy ===
/** One flight segment of a day, as recognised on a roster line. */
module FlightLegs {
  import opened Text

  /** The five text fields and the next-day flag of the source's
      `FlightLeg`; the random `id` is not modelled, so two legs with the
      same data are equal here. */
  datatype FlightLeg = FlightLeg(
    flightNumber: string,
    depAirport: string,
    arrAirport: string,
    depTime: string,
    arrTime: string,
    isNextDay: bool)

  /** `[A-Z0-9]+` */
  predicate IsFlightCode(s: string) { |s| > 0 && All(s, IsCodeChar) }

  /** `[A-Z]{3}` */
  predicate IsAirportCode(s: string) { |s| == 3 && All(s, IsUpper) }

  /** `\d{4}` */
  predicate IsClockTime(s: string) { |s| == 4 && All(s, IsDigit) }

  /** The shape of every leg the flight-line pattern can produce. */
  predicate WellFormed(leg: FlightLeg) {
    && IsFlightCode(leg.flightNumber)
    && IsAirportCode(leg.depAirport)
    && IsAirportCode(leg.arrAirport)
    && IsClockTime(leg.depTime)
    && IsClockTime(leg.arrTime)
  }
}

=== FILE: gap_filling.dfy ===
/** The gap-filling pass that runs after the line fold (`DataParser.fillGaps`).
    Days the transcript left `Unknown` directly after a trip day become
    layovers carrying the previous day's flight number, and a turnaround
    whose next day is a trip day is promoted to the start of a multi-day
    trip. The pass walks the days once, left to right, so a day sees its
    predecessor already settled and its successor not yet touched. */
module GapFilling {
  import opened Duty
  import opened Schedule

  /** The two duty types that continue into a following unknown day. */
  predicate IsTripLike(t: DutyType) {
    t == MultiDayTrip || t == Layover
  }

  /** An unknown day taken over by the trip of the day before it. */
  function AsLayover(day: DailySchedule, prev: DailySchedule): DailySchedule {
    day.(duty := Layover, isContinuing := true, flightNumber := prev.flightNumber)
  }

  /** A turnaround re-read as the first day of a multi-day trip. */
  function AsTripStart(day: DailySchedule): DailySchedule {
    day.(duty := MultiDayTrip, isTripStart := true)
  }

  /** Day `j` of the input is unknown and the settled day before it is a trip day. */
  predicate FillsGap(s: seq<DailySchedule>, r: seq<DailySchedule>, j: int)
    requires 0 <= j < |s| == |r|
  {
    s[j].duty == Unknown && j > 0 && IsTripLike(r[j - 1].duty)
  }

  /** Day `j` of the input is a turnaround and the input's next day is a trip day. */
  predicate OpensTrip(s: seq<DailySchedule>, j: int)
    requires 0 <= j < |s|
  {
    s[j].duty == Turnaround && j + 1 < |s| && IsTripLike(s[j + 1].duty)
  }

  /** What the pass leaves at day `j`, given the already settled day before it. */
  predicate SettledAt(s: seq<DailySchedule>, r: seq<DailySchedule>, j: int)
    requires 0 <= j < |s| == |r|
  {
    if FillsGap(s, r, j) then r[j] == AsLayover(s[j], r[j - 1])
    else if OpensTrip(s, j) then r[j] == AsTripStart(s[j])
    else r[j] == s[j]
  }

  /** `r` is what the pass makes of `s`. */
  predicate FillGapsSpec(s: seq<DailySchedule>, r: seq<DailySchedule>) {
    |s| == |r| && forall j :: 0 <= j < |s| ==> SettledAt(s, r, j)
  }

  /** The pass itself. It keeps every day's frame, legs, annotation and
      trip-end flag; it changes only unknown days and turnarounds; and a
      turnaround is promoted exactly when the next day of the input is a
      trip day. */
  method FillGaps(schedule: seq<DailySchedule>) returns (result: seq<DailySchedule>)
    ensures FillGapsSpec(schedule, result)
    ensures SameFrames(schedule, result)
    ensures forall j :: 0 <= j < |schedule| ==>
              && result[j].legs == schedule[j].legs
              && result[j].metaInfo == schedule[j].metaInfo
              && result[j].isTripEnd == schedule[j].isTripEnd
    ensures forall j :: 0 <= j < |schedule| && schedule[j].duty != Unknown && schedule[j].duty != Turnaround ==>
              result[j] == schedule[j]
    ensures forall j :: 0 <= j < |schedule| && schedule[j].duty == Turnaround ==>
              result[j] == (if j + 1 < |schedule| && IsTripLike(schedule[j + 1].duty) then AsTripStart(schedule[j]) else schedule[j])
  {
    result := schedule;
    var i := 0;
    while i < |result|
      invariant 0 <= i <= |result| == |schedule|
      invariant forall j :: 0 <= j < i ==> SettledAt(schedule, result, j)
      invariant forall j :: i <= j < |result| ==> result[j] == schedule[j]
    {
      ghost var before := result;
      if result[i].duty == Unknown {
        if i > 0 {
          var prevType := result[i - 1].duty;
          if prevType == MultiDayTrip || prevType == Layover {
            result := result[i := result[i].(duty := Layover, isContinuing := true)];
            result := result[i := result[i].(flightNumber := result[i - 1].flightNumber)];
          }
        }
      }
      if result[i].duty == Turnaround && i + 1 < |result| {
        if result[i + 1].duty == Layover || result[i + 1].duty == MultiDayTrip {
          result := result[i := result[i].(duty := MultiDayTrip, isTripStart := true)];
        }
      }
      assert SettledAt(schedule, result, i);
      forall j | 0 <= j < i
        ensures SettledAt(schedule, result, j)
      {
        SettledAtLocal(schedule, before, result, j);
      }
      i := i + 1;
    }
    SpecEffects(schedule, result);
  }

  /** Whether day `j` is settled depends only on days `j - 1` and `j`. */
  lemma SettledAtLocal(s: seq<DailySchedule>, r: seq<DailySchedule>, r': seq<DailySchedule>, j: int)
    requires 0 <= j < |s| == |r| == |r'|
    requires r[j] == r'[j] && (j > 0 ==> r[j - 1] == r'[j - 1])
    requires SettledAt(s, r, j)
    ensures SettledAt(s, r', j)
  {
  }

  /** The per-day effects of the pass, read off its description. */
  lemma SpecEffects(s: seq<DailySchedule>, r: seq<DailySchedule>)
    requires FillGapsSpec(s, r)
    ensures SameFrames(s, r)
    ensures forall j :: 0 <= j < |s| ==>
              && r[j].legs == s[j].legs
              && r[j].metaInfo == s[j].metaInfo
              && r[j].isTripEnd == s[j].isTripEnd
    ensures forall j :: 0 <= j < |s| && s[j].duty != Unknown && s[j].duty != Turnaround ==>
              r[j] == s[j]
    ensures forall j :: 0 <= j < |s| && s[j].duty == Turnaround ==>
              r[j] == (if j + 1 < |s| && IsTripLike(s[j + 1].duty) then AsTripStart(s[j]) else s[j])
    ensures forall j :: 0 <= j < |s| && s[j].duty == Unknown ==>
              r[j] == (if j > 0 && IsTripLike(r[j - 1].duty) then AsLayover(s[j], r[j - 1]) else s[j])
  {
    forall j | 0 <= j < |s|
      ensures SameFrame(s[j], r[j])
      ensures r[j].legs == s[j].legs && r[j].metaInfo == s[j].metaInfo && r[j].isTripEnd == s[j].isTripEnd
      ensures s[j].duty != Unknown && s[j].duty != Turnaround ==> r[j] == s[j]
      ensures s[j].duty == Turnaround ==>
                r[j] == (if j + 1 < |s| && IsTripLike(s[j + 1].duty) then AsTripStart(s[j]) else s[j])
      ensures s[j].duty == Unknown ==>
                r[j] == (if j > 0 && IsTripLike(r[j - 1].duty) then AsLayover(s[j], r[j - 1]) else s[j])
    {
      assert SettledAt(s, r, j);
    }
  }

  // ---------------------------------------------------------------------
  // The pass, described without its loop

  /** Day `i` of the input is a trip day and every day after it up to and
      including day `j` is unknown: day `j` lies in a gap the trip of day
      `i` opened. */
  predicate TripOpensRun(s: seq<DailySchedule>, i: int, j: int) {
    && 0 <= i < j < |s|
    && IsTripLike(s[i].duty)
    && forall k :: i < k <= j ==> s[k].duty == Unknown
  }

  /** The results the pass can produce are determined by its input. */
  lemma {:induction false} SettledDaysAgree(s: seq<DailySchedule>, r1: seq<DailySchedule>, r2: seq<DailySchedule>, j: int)
    requires FillGapsSpec(s, r1) && FillGapsSpec(s, r2)
    requires 0 <= j < |s|
    ensures r1[j] == r2[j]
    decreases j
  {
    if j > 0 {
      SettledDaysAgree(s, r1, r2, j - 1);
    }
    assert SettledAt(s, r1, j) && SettledAt(s, r2, j);
  }

  lemma FillGapsDeterministic(s: seq<DailySchedule>, r1: seq<DailySchedule>, r2: seq<DailySchedule>)
    requires FillGapsSpec(s, r1) && FillGapsSpec(s, r2)
    ensures r1 == r2
  {
    forall j | 0 <= j < |s|
      ensures r1[j] == r2[j]
    {
      SettledDaysAgree(s, r1, r2, j);
    }
  }

  /** An unknown day becomes a layover exactly when it lies in a gap opened
      by an earlier trip day; it then carries that trip day's flight number
      and the continuing flag, and otherwise it is left as it was. */
  lemma {:induction false} LayoverIffTripGap(s: seq<DailySchedule>, r: seq<DailySchedule>, j: int)
    requires FillGapsSpec(s, r)
    requires 0 <= j < |s| && s[j].duty == Unknown
    ensures r[j].duty == Layover <==> exists i :: TripOpensRun(s, i, j)
    ensures forall i :: TripOpensRun(s, i, j) ==>
              r[j] == s[j].(duty := Layover, isContinuing := true, flightNumber := s[i].flightNumber)
    ensures (forall i :: !TripOpensRun(s, i, j)) ==> r[j] == s[j]
    decreases j
  {
    assert SettledAt(s, r, j);
    if j == 0 {
      assert r[j] == s[j];
    } else {
      assert SettledAt(s, r, j - 1);
      var p := s[j - 1].duty;
      if p == Unknown {
        LayoverIffTripGap(s, r, j - 1);
        if r[j - 1].duty == Layover {
          var i :| TripOpensRun(s, i, j - 1);
          assert TripOpensRun(s, i, j);
        } else {
          assert r[j] == s[j];
        }
        forall i | TripOpensRun(s, i, j)
          ensures TripOpensRun(s, i, j - 1)
        {
        }
        forall i | TripOpensRun(s, i, j - 1)
          ensures TripOpensRun(s, i, j)
        {
        }
      } else if IsTripLike(p) {
        assert r[j - 1] == s[j - 1];
        assert TripOpensRun(s, j - 1, j);
        forall i | TripOpensRun(s, i, j)
          ensures i == j - 1
        {
        }
      } else {
        assert !IsTripLike(r[j - 1].duty);
        forall i | TripOpensRun(s, i, j)
          ensures false
        {
        }
      }
    }
  }

  /** A turnaround is promoted exactly when the next day of the input is a
      trip day, and every day the pass turns into a multi-day trip was a
      turnaround it marks as a trip start. */
  lemma TripStartIffNextIsTrip(s: seq<DailySchedule>, r: seq<DailySchedule>, j: int)
    requires FillGapsSpec(s, r)
    requires 0 <= j < |s|
    ensures s[j].duty == Turnaround ==>
              (r[j].duty == MultiDayTrip <==> j + 1 < |s| && IsTripLike(s[j + 1].duty))
    ensures r[j].duty == MultiDayTrip && s[j].duty != MultiDayTrip ==>
              s[j].duty == Turnaround && r[j].isTripStart
  {
    assert SettledAt(s, r, j);
  }

  /** The promotion test reads the next day before the pass settles it: of
      two turnarounds followed by a multi-day trip only the second is
      promoted, although after the pass the first is followed by a trip day. */
  lemma PromotionReadsUnsettledNextDay(s: seq<DailySchedule>, r: seq<DailySchedule>)
    requires FillGapsSpec(s, r)
    requires |s| == 3
    requires s[0].duty == Turnaround && s[1].duty == Turnaround && s[2].duty == MultiDayTrip
    ensures r[0] == s[0] && r[1] == AsTripStart(s[1]) && r[2] == s[2]
    ensures IsTripLike(r[1].duty)
  {
    assert SettledAt(s, r, 0) && SettledAt(s, r, 1) && SettledAt(s, r, 2);
  }
}

=== FILE: line_classifier.dfy ===
/** Classification of one trimmed transcript line, in the order the parser
    tries it: the date-marker pattern, then the flight-leg pattern, then the
    two keyword lists. The two regular expressions are written out as
    left-to-right consumers of the line. The date pattern matches in at most
    one way. The flight pattern does too once its optional "+1" group is taken
    whenever it can be, as the greedy engine does; that is the `isNextDay`
    conjunct of `IsFlightLine`. The consumers find exactly that match. */
module LineClassifier {
  import opened Wrappers
  import opened Text
  import opened Calendars
  import opened FlightLegs

  datatype LineKind =
    | DateMarker(day: int)
    | Leg(leg: FlightLeg)
    | Keywords(off: bool, training: bool)
    | Other

  /** The alternatives of the date pattern `(Mon|Tue|Wed|Thu|Fri|Sat|Sun)`. */
  const WeekdayAbbreviations: seq<string> := ["Mon", "Tue", "Wed", "Thu", "Fri", "Sat", "Sun"]

  /** Words that mark a day off. */
  const OffKeywords: seq<string> := ["OFF", "ADO", "Assigned day off"]

  /** Words that mark a training day. */
  const TrainingKeywords: seq<string> := ["BC", "ETS"]

  /** Splits `s` after its longest prefix of `p` characters. */
  function TakeWhile(s: string, p: char -> bool): (r: (string, string))
    ensures r.0 + r.1 == s
    ensures All(r.0, p)
    ensures |r.1| > 0 ==> !p(r.1[0])
  {
    var k := Span(s, 0, p);
    assert s == s[..k] + s[k..];
    (s[..k], s[k..])
  }

  /** A greedy run stops exactly where the class stops. */
  lemma TakeWhileOf(x: string, y: string, p: char -> bool)
    requires All(x, p)
    requires |y| > 0 ==> !p(y[0])
    ensures TakeWhile(x + y, p) == (x, y)
  {
    SpanIs(x + y, 0, p, |x|);
    assert (x + y)[..|x|] == x;
    assert (x + y)[|x|..] == y;
  }

  function TwoDigitValue(dd: string): (n: int)
    requires |dd| == 2 && IsDigit(dd[0]) && IsDigit(dd[1])
    ensures 0 <= n <= 99
  {
    10 * DigitValue(dd[0]) + DigitValue(dd[1])
  }

  // ---------------------------------------------------------------------
  // Date markers: ^(\d{2})\s+(Mon|Tue|Wed|Thu|Fri|Sat|Sun)

  /** The date pattern applied at the start of `s`, with `Int(match.1)`
      applied to the two digits. */
  function MatchDate(s: string): (r: Option<int>)
    ensures r.Some? ==> 0 <= r.value <= 99
  {
    if |s| < 2 || !IsDigit(s[0]) || !IsDigit(s[1]) then None
    else
      var (w, rest) := TakeWhile(s[2..], IsRegexSpace);
      if |w| == 0 || |rest| < 3 || rest[..3] !in WeekdayAbbreviations then None
      else Some(TwoDigitValue(s[..2]))
  }

  /** `s` taken apart as the date pattern reads it: two digits, a run of
      spaces, a weekday name, then anything. */
  predicate IsDateLine(s: string, dd: string, w: string, name: string, tail: string) {
    && |dd| == 2 && IsDigit(dd[0]) && IsDigit(dd[1])
    && IsSpaces(w)
    && name in WeekdayAbbreviations
    && s == dd + (w + (name + tail))
  }

  /** Every line of the date shape matches, with the day its digits spell. */
  lemma DateLineMatches(s: string, dd: string, w: string, name: string, tail: string)
    requires IsDateLine(s, dd, w, name, tail)
    ensures MatchDate(s) == Some(TwoDigitValue(dd))
  {
    assert s[..2] == dd;
    assert s[2..] == w + (name + tail);
    assert (name + tail)[0] == name[0];
    TakeWhileOf(w, name + tail, IsRegexSpace);
    assert (name + tail)[..3] == name;
  }

  /** Every match comes from a line of the date shape. */
  lemma DateMatchIsDateLine(s: string)
    requires MatchDate(s).Some?
    ensures exists dd, w, name, tail :: IsDateLine(s, dd, w, name, tail) && TwoDigitValue(dd) == MatchDate(s).value
  {
    var (w, rest) := TakeWhile(s[2..], IsRegexSpace);
    var name := rest[..3];
    var tail := rest[3..];
    assert rest == name + tail;
    assert s == s[..2] + s[2..];
    assert IsDateLine(s, s[..2], w, name, tail);
  }

  // ---------------------------------------------------------------------
  // Flight legs: ^([A-Z0-9]+)\s+(\d{4})\s+([A-Z]{3})\s+([A-Z]{3})\s+(\d{4})([+]1)?

  /** `\s+` followed by a field of `width` characters that `ok` accepts:
      returns the spaces, the field and the rest of the line. */
  function SpacedField(s: string, width: nat, ok: string -> bool): (r: Option<(string, string, string)>)
    ensures r.Some? ==> IsSpaces(r.value.0) && |r.value.1| == width && ok(r.value.1)
    ensures r.Some? ==> s == r.value.0 + (r.value.1 + r.value.2)
  {
    var (w, rest) := TakeWhile(s, IsRegexSpace);
    if |w| == 0 || |rest| < width || !ok(rest[..width]) then None
    else
      assert rest == rest[..width] + rest[width..];
      Some((w, rest[..width], rest[width..]))
  }

  /** A space run followed by an acceptable field is read back as exactly
      that run and that field. */
  lemma SpacedFieldOf(w: string, field: string, rest: string, width: nat, ok: string -> bool)
    requires IsSpaces(w) && |field| == width && width > 0 && ok(field) && !IsRegexSpace(field[0])
    ensures SpacedField(w + (field + rest), width, ok) == Some((w, field, rest))
  {
    assert (field + rest)[0] == field[0];
    TakeWhileOf(w, field + rest, IsRegexSpace);
    assert (field + rest)[..width] == field;
    assert (field + rest)[width..] == rest;
  }

  /** One `\s+`-separated fixed-width field of the flight pattern. */
  datatype FieldSpec = FieldSpec(width: nat, ok: string -> bool)

  /** The fields after the flight number: `(\d{4})`, `([A-Z]{3})`,
      `([A-Z]{3})`, `(\d{4})`, each preceded by `\s+`. */
  const LegFields: seq<FieldSpec> :=
    [FieldSpec(4, IsClockTime), FieldSpec(3, IsAirportCode), FieldSpec(3, IsAirportCode), FieldSpec(4, IsClockTime)]

  /** `ws` are space runs and `fields` are fields of the shapes `specs` asks for. */
  predicate FieldsFit(specs: seq<FieldSpec>, ws: seq<string>, fields: seq<string>) {
    && |ws| == |specs| && |fields| == |specs|
    && forall n :: 0 <= n < |specs| ==>
         IsSpaces(ws[n]) && |fields[n]| == specs[n].width && specs[n].ok(fields[n])
  }

  lemma FieldsFitCons(specs: seq<FieldSpec>, w: string, field: string, ws: seq<string>, fields: seq<string>)
    requires |specs| > 0 && FieldsFit(specs[1..], ws, fields)
    requires IsSpaces(w) && |field| == specs[0].width && specs[0].ok(field)
    ensures FieldsFit(specs, [w] + ws, [field] + fields)
  {
    var ws' := [w] + ws;
    var fields' := [field] + fields;
    forall n | 0 < n < |specs|
      ensures IsSpaces(ws'[n]) && |fields'[n]| == specs[n].width && specs[n].ok(fields'[n])
    {
      assert ws'[n] == ws[n - 1] && fields'[n] == fields[n - 1] && specs[n] == specs[1..][n - 1];
    }
  }

  lemma InterleaveCons(w: string, field: string, ws: seq<string>, fields: seq<string>, tail: string)
    requires |ws| == |fields|
    ensures Interleave([w] + ws, [field] + fields, tail) == w + (field + Interleave(ws, fields, tail))
  {
    assert ([w] + ws)[1..] == ws && ([field] + fields)[1..] == fields;
  }

  /** Reads the space-separated fields `specs` from the start of `s`:
      the space runs, the fields, and the rest of the line. */
  function SpacedFields(s: string, specs: seq<FieldSpec>): (r: Option<(seq<string>, seq<string>, string)>)
    ensures r.Some? ==> FieldsFit(specs, r.value.0, r.value.1)
    ensures r.Some? ==> s == Interleave(r.value.0, r.value.1, r.value.2)
    decreases |specs|
  {
    if specs == [] then Some(([], [], s))
    else
      match SpacedField(s, specs[0].width, specs[0].ok) {
        case None => None
        case Some((w, field, rest)) =>
          match SpacedFields(rest, specs[1..]) {
            case None => None
            case Some((ws, fields, tail)) =>
              FieldsFitCons(specs, w, field, ws, fields);
              InterleaveCons(w, field, ws, fields, tail);
              Some(([w] + ws, [field] + fields, tail))
          }
      }
  }

  /** Space runs and fields laid out alternately, followed by `tail`. */
  function Interleave(ws: seq<string>, fields: seq<string>, tail: string): string
    requires |ws| == |fields|
    decreases |ws|
  {
    if ws == [] then tail else ws[0] + (fields[0] + Interleave(ws[1..], fields[1..], tail))
  }

  /** Fields laid out after space runs are read back exactly. */
  lemma {:induction false} SpacedFieldsOf(ws: seq<string>, fields: seq<string>, tail: string, specs: seq<FieldSpec>)
    requires |ws| == |fields| == |specs|
    requires forall n :: 0 <= n < |specs| ==> IsSpaces(ws[n]) && |fields[n]| == specs[n].width
    requires forall n :: 0 <= n < |specs| ==> specs[n].width > 0 && specs[n].ok(fields[n]) && !IsRegexSpace(fields[n][0])
    ensures SpacedFields(Interleave(ws, fields, tail), specs) == Some((ws, fields, tail))
    decreases |specs|
  {
    if specs != [] {
      var rest := Interleave(ws[1..], fields[1..], tail);
      SpacedFieldOf(ws[0], fields[0], rest, specs[0].width, specs[0].ok);
      SpacedFieldsOf(ws[1..], fields[1..], tail, specs[1..]);
      assert ws == [ws[0]] + ws[1..];
      assert fields == [fields[0]] + fields[1..];
    }
  }

  /** The flight pattern applied at the start of `s`; the leg takes its
      fields from the capture groups (number = 1, departure time = 2,
      airports = 3 and 4, arrival time = 5) and is next-day exactly when
      group 6, a literal "+1" right after the arrival time, matched. */
  function MatchFlight(s: string): (r: Option<FlightLeg>)
    ensures r.Some? ==> WellFormed(r.value)
  {
    var (number, r1) := TakeWhile(s, IsCodeChar);
    if |number| == 0 then None
    else
      match SpacedFields(r1, LegFields) {
        case None => None
        case Some((_, f, tail)) => Some(FlightLeg(number, f[1], f[2], f[0], f[3], StartsWith(tail, "+1")))
      }
  }

  /** The text a flight line carries after the arrival time: "+1" for a
      next-day arrival, then the rest of the line. */
  function ArrivalSuffix(leg: FlightLeg, tail: string): string {
    if leg.isNextDay then "+1" + tail else tail
  }

  /** A flight line assembled from its fields, the space runs `w1`..`w4`
      between them, and the text after the arrival time. */
  function FlightText(leg: FlightLeg, w1: string, w2: string, w3: string, w4: string, tail: string): string {
    leg.flightNumber + (w1 + (leg.depTime + (w2 + (leg.depAirport + (w3 + (leg.arrAirport
      + (w4 + (leg.arrTime + ArrivalSuffix(leg, tail)))))))))
  }

  /** `s` taken apart as the flight pattern reads it, with `w1`..`w4` the
      space runs between the fields and `tail` whatever follows. A line whose
      tail starts with "+1" after an arrival time is a next-day line. */
  predicate IsFlightLine(s: string, leg: FlightLeg, w1: string, w2: string, w3: string, w4: string, tail: string) {
    && WellFormed(leg)
    && IsSpaces(w1) && IsSpaces(w2) && IsSpaces(w3) && IsSpaces(w4)
    && (!leg.isNextDay ==> !StartsWith(tail, "+1"))
    && s == FlightText(leg, w1, w2, w3, w4, tail)
  }

  lemma FlightTextInterleaved(leg: FlightLeg, w1: string, w2: string, w3: string, w4: string, tail: string)
    ensures FlightText(leg, w1, w2, w3, w4, tail) ==
            leg.flightNumber + Interleave([w1, w2, w3, w4], [leg.depTime, leg.depAirport, leg.arrAirport, leg.arrTime], ArrivalSuffix(leg, tail))
  {
    var ws := [w1, w2, w3, w4];
    var fs := [leg.depTime, leg.depAirport, leg.arrAirport, leg.arrTime];
    var t := ArrivalSuffix(leg, tail);
    assert Interleave(ws[3..], fs[3..], t) == w4 + (leg.arrTime + t);
    assert Interleave(ws[2..], fs[2..], t) == w3 + (leg.arrAirport + Interleave(ws[3..], fs[3..], t));
    assert Interleave(ws[1..], fs[1..], t) == w2 + (leg.depAirport + Interleave(ws[2..], fs[2..], t));
  }

  /** Every line of the flight shape matches, and yields exactly its leg. */
  lemma FlightLineMatches(s: string, leg: FlightLeg, w1: string, w2: string, w3: string, w4: string, tail: string)
    requires IsFlightLine(s, leg, w1, w2, w3, w4, tail)
    ensures MatchFlight(s) == Some(leg)
  {
    var ws := [w1, w2, w3, w4];
    var fs := [leg.depTime, leg.depAirport, leg.arrAirport, leg.arrTime];
    var t := ArrivalSuffix(leg, tail);
    FlightTextInterleaved(leg, w1, w2, w3, w4, tail);
    LegFieldsReadBack(leg, ws, t);
    NumberBeforeSpaces(leg.flightNumber, ws, fs, t);
    NextDayFlagReadBack(leg, tail);
  }

  /** The flight number ends where the first space run begins. */
  lemma NumberBeforeSpaces(number: string, ws: seq<string>, fs: seq<string>, t: string)
    requires All(number, IsCodeChar)
    requires |ws| == |fs| == 4 && IsSpaces(ws[0])
    ensures TakeWhile(number + Interleave(ws, fs, t), IsCodeChar) == (number, Interleave(ws, fs, t))
  {
    var r1 := Interleave(ws, fs, t);
    assert r1 == ws[0] + (fs[0] + Interleave(ws[1..], fs[1..], t));
    assert r1[0] == ws[0][0];
    TakeWhileOf(number, r1, IsCodeChar);
  }

  /** The text after the arrival time starts with "+1" exactly for a
      next-day leg. */
  lemma NextDayFlagReadBack(leg: FlightLeg, tail: string)
    requires !leg.isNextDay ==> !StartsWith(tail, "+1")
    ensures StartsWith(ArrivalSuffix(leg, tail), "+1") == leg.isNextDay
  {
    if leg.isNextDay {
      assert ("+1" + tail)[..2] == "+1";
    }
  }

  /** The four fields of a well-formed leg, after space runs, are read back
      by the field matcher. */
  lemma LegFieldsReadBack(leg: FlightLeg, ws: seq<string>, t: string)
    requires WellFormed(leg)
    requires |ws| == 4 && forall n :: 0 <= n < 4 ==> IsSpaces(ws[n])
    ensures var fs := [leg.depTime, leg.depAirport, leg.arrAirport, leg.arrTime];
            SpacedFields(Interleave(ws, fs, t), LegFields) == Some((ws, fs, t))
  {
    var fs := [leg.depTime, leg.depAirport, leg.arrAirport, leg.arrTime];
    assert IsDigit(leg.depTime[0]) && IsUpper(leg.depAirport[0]);
    assert IsUpper(leg.arrAirport[0]) && IsDigit(leg.arrTime[0]);
    forall n | 0 <= n < 4
      ensures |fs[n]| == LegFields[n].width && LegFields[n].width > 0
      ensures LegFields[n].ok(fs[n]) && !IsRegexSpace(fs[n][0])
    {
    }
    SpacedFieldsOf(ws, fs, t, LegFields);
  }

  /** Every match comes from a line of the flight shape. */
  lemma FlightMatchIsFlightLine(s: string)
    requires MatchFlight(s).Some?
    ensures exists w1, w2, w3, w4, tail :: IsFlightLine(s, MatchFlight(s).value, w1, w2, w3, w4, tail)
  {
    var leg := MatchFlight(s).value;
    var split := TakeWhile(s, IsCodeChar);
    var number, r1 := split.0, split.1;
    var fields := SpacedFields(r1, LegFields).value;
    var ws, fs, rest := fields.0, fields.1, fields.2;
    assert leg == FlightLeg(number, fs[1], fs[2], fs[0], fs[3], StartsWith(rest, "+1"));
    assert FieldsFit(LegFields, ws, fs);
    var tail := if leg.isNextDay then rest[2..] else rest;
    assert rest == ArrivalSuffix(leg, tail) by {
      if leg.isNextDay {
        assert rest == rest[..2] + rest[2..];
      }
    }
    assert ws == [ws[0], ws[1], ws[2], ws[3]];
    assert fs == [leg.depTime, leg.depAirport, leg.arrAirport, leg.arrTime];
    assert IsSpaces(ws[0]) && IsSpaces(ws[1]) && IsSpaces(ws[2]) && IsSpaces(ws[3]);
    FlightTextInterleaved(leg, ws[0], ws[1], ws[2], ws[3], tail);
    assert s == FlightText(leg, ws[0], ws[1], ws[2], ws[3], tail);
    assert IsFlightLine(s, leg, ws[0], ws[1], ws[2], ws[3], tail);
  }

  /** A date line is never a flight line: after the two digits and the
      spaces comes a weekday letter, where the flight pattern needs a digit. */
  lemma DateLineIsNotFlight(s: string)
    requires MatchDate(s).Some?
    ensures MatchFlight(s).None?
  {
    var (w, rest) := TakeWhile(s[2..], IsRegexSpace);
    assert s == s[..2] + s[2..];
    assert s[2..][0] == w[0];
    TakeWhileOf(s[..2], s[2..], IsCodeChar);
    assert rest[0] == rest[..3][0];
    assert SpacedField(s[2..], 4, IsClockTime).None? by {
      if |rest| >= 4 {
        assert rest[..4][0] == rest[0];
      }
    }
  }

  // ---------------------------------------------------------------------
  // Classification

  /** The kind of a trimmed line: first pattern that applies wins. A line that
      contains both kinds of keyword is reported with both flags set. */
  function Classify(t: string): (k: LineKind)
    ensures k.DateMarker? ==> 0 <= k.day <= 99
    ensures k.Leg? ==> WellFormed(k.leg)
    ensures k.Keywords? ==> k.off || k.training
  {
    match MatchDate(t)
    case Some(d) => DateMarker(d)
    case None =>
      match MatchFlight(t)
      case Some(leg) => Leg(leg)
      case None =>
        var off := ContainsAny(t, OffKeywords);
        var training := ContainsAny(t, TrainingKeywords);
        if off || training then Keywords(off, training) else Other
  }

  /** A transcript line as the parser's loop sees it: trimmed, and classified. */
  datatype ReadLine = ReadLine(text: string, kind: LineKind)

  function Read(line: string): (r: ReadLine)
    ensures r.text == Trim(line) && r.kind == Classify(Trim(line))
  {
    var t := Trim(line);
    ReadLine(t, Classify(t))
  }

  /** Every line of a transcript, read in order. */
  function ReadAll(lines: seq<string>): (r: seq<ReadLine>)
    ensures |r| == |lines|
    ensures forall i :: 0 <= i < |lines| ==> r[i] == Read(lines[i])
  {
    seq(|lines|, i requires 0 <= i < |lines| => Read(lines[i]))
  }

  /** Spaces and tabs around a line never change how it reads. */
  lemma ReadIgnoresPadding(pre: string, line: string, post: string)
    requires All(pre, IsBlank) && All(post, IsBlank)
    ensures Read(pre + line + post) == Read(line)
    ensures Read(Read(line).text) == Read(line)
  {
    TrimIgnoresPadding(pre, line, post);
    TrimIdempotent(line);
  }

  /** Reading the line-feed join of some lines gives exactly the readings
      of those lines, in order. */
  lemma {:induction false} ReadAllSplitJoin(lines: seq<string>)
    requires |lines| >= 1
    requires forall n :: 0 <= n < |lines| ==> NoNewline(lines[n])
    ensures ReadAll(Split(Join(lines))) == ReadAll(lines)
  {
    SplitJoin(lines);
    ReadAllOfEqual(Split(Join(lines)), lines);
  }

  lemma ReadAllOfEqual(a: seq<string>, b: seq<string>)
    requires a == b
    ensures ReadAll(a) == ReadAll(b)
  {
  }

  /** A line of the date shape is a date marker, whatever else it contains. */
  lemma DateLineClassified(s: string, dd: string, w: string, name: string, tail: string)
    requires IsDateLine(s, dd, w, name, tail)
    ensures Classify(s) == DateMarker(TwoDigitValue(dd))
  {
    DateLineMatches(s, dd, w, name, tail);
  }

  /** A line of the flight shape is that flight leg, whatever keywords its
      tail or its flight number contain. */
  lemma FlightLineClassified(s: string, leg: FlightLeg, w1: string, w2: string, w3: string, w4: string, tail: string)
    requires IsFlightLine(s, leg, w1, w2, w3, w4, tail)
    ensures Classify(s) == Leg(leg)
  {
    FlightLineMatches(s, leg, w1, w2, w3, w4, tail);
    if MatchDate(s).Some? {
      DateLineIsNotFlight(s);
    }
  }

  /** A line is a keyword line exactly when it fits neither pattern and
      contains some keyword; the flags say which lists matched. */
  lemma KeywordLineClassified(s: string)
    ensures Classify(s).Keywords? <==>
              (forall dd, w, name, tail :: !IsDateLine(s, dd, w, name, tail)) &&
              (forall leg, w1, w2, w3, w4, tail :: !IsFlightLine(s, leg, w1, w2, w3, w4, tail)) &&
              (ContainsAny(s, OffKeywords) || ContainsAny(s, TrainingKeywords))
    ensures Classify(s).Keywords? ==>
              Classify(s).off == ContainsAny(s, OffKeywords) && Classify(s).training == ContainsAny(s, TrainingKeywords)
  {
    if MatchDate(s).Some? {
      DateMatchIsDateLine(s);
    } else {
      forall dd, w, name, tail | IsDateLine(s, dd, w, name, tail) ensures false {
        DateLineMatches(s, dd, w, name, tail);
      }
      if MatchFlight(s).Some? {
        FlightMatchIsFlightLine(s);
      } else {
        forall leg, w1, w2, w3, w4, tail | IsFlightLine(s, leg, w1, w2, w3, w4, tail) ensures false {
          FlightLineMatches(s, leg, w1, w2, w3, w4, tail);
        }
      }
    }
  }

  /** The skeleton's own "dd EEE" date strings are date markers for their
      own day. */
  lemma FormattedDateIsMarker(date: CivilDate)
    requires 0 <= date.day < 100
    ensures Trim(FormatDayAndWeekday(date)) == FormatDayAndWeekday(date)
    ensures Classify(FormatDayAndWeekday(date)) == DateMarker(date.day)
  {
    var s := FormatDayAndWeekday(date);
    var dd := TwoDigits(date.day);
    var name := WeekdayNames[WeekdayOf(date) - 1];
    assert s == dd + (" " + (name + ""));
    TrimUntouched(s);
    DateLineClassified(s, dd, " ", name, "");
  }
}

=== FILE: month_helper.dfy ===
/** The month skeleton (`MonthHelper.generateMonthDays`): one fresh day per
    day of the month, in ascending order, built with whatever calendar is
    passed in. */
module MonthHelper {
  import opened Wrappers
  import opened Calendars
  import opened Schedule

  /** The entry the loop body appends for day number `day`, given the date
      the calendar built for it. */
  predicate BuiltBy(cal: Calendar, year: int, month: int, e: DailySchedule) {
    && cal.dateFrom(year, month, e.day) == Some(e.date)
    && e.weekday == cal.weekdayOf(e.date)
    && e.dateString == cal.format(e.date)
    && IsFresh(e)
  }

  predicate StrictlyAscendingDays(days: seq<DailySchedule>) {
    forall i, j :: 0 <= i < j < |days| ==> days[i].day < days[j].day
  }

  /** The day numbers that have an entry. */
  function DayNumbers(days: seq<DailySchedule>): set<int> {
    set k | 0 <= k < |days| :: days[k].day
  }

  /** The loop over day numbers `day..<upper`: a day the calendar cannot
      build is skipped, every other day gets one entry, in ascending order. */
  function DaysFrom(cal: Calendar, year: int, month: int, day: int, upper: int): (days: seq<DailySchedule>)
    ensures |days| <= if day <= upper then upper - day else 0
    ensures StrictlyAscendingDays(days)
    ensures forall k :: 0 <= k < |days| ==> BuiltBy(cal, year, month, days[k])
    ensures forall d :: d in DayNumbers(days) <==> day <= d < upper && cal.dateFrom(year, month, d).Some?
    decreases upper - day
  {
    if day >= upper then []
    else
      var rest := DaysFrom(cal, year, month, day + 1, upper);
      match cal.dateFrom(year, month, day)
      case None => rest
      case Some(date) =>
        var e := NewDay(date, day, cal.weekdayOf(date), cal.format(date));
        PrependDay(e, rest);
        [e] + rest
  }

  /** A day placed before entries of later days keeps them ascending and
      adds its own number. */
  lemma PrependDay(e: DailySchedule, rest: seq<DailySchedule>)
    requires StrictlyAscendingDays(rest)
    requires forall d :: d in DayNumbers(rest) ==> e.day < d
    ensures StrictlyAscendingDays([e] + rest)
    ensures DayNumbers([e] + rest) == {e.day} + DayNumbers(rest)
  {
    var days := [e] + rest;
    assert forall k :: 0 <= k < |rest| ==> days[k + 1] == rest[k];
    forall i, j | 0 <= i < j < |days| ensures days[i].day < days[j].day {
      assert days[j].day in DayNumbers(rest);
    }
    forall d | d in DayNumbers(days) ensures d in {e.day} + DayNumbers(rest) {
      var k :| 0 <= k < |days| && days[k].day == d;
      if k > 0 { assert rest[k - 1].day == d; }
    }
    forall d | d in DayNumbers(rest) ensures d in DayNumbers(days) {
      var k :| 0 <= k < |rest| && rest[k].day == d;
      assert days[k + 1].day == d;
    }
    assert days[0].day == e.day;
  }

  /** `generateMonthDays(year:month:)`. Empty when the first of the month or
      the month's day range cannot be formed; otherwise one fresh entry per
      buildable day of the range, ascending, and no day outside it. */
  function GenerateMonthDays(cal: Calendar, year: int, month: int): (days: seq<DailySchedule>)
    ensures cal.dateFrom(year, month, 1).None? ==> days == []
    ensures cal.dateFrom(year, month, 1).Some? && cal.dayRange(cal.dateFrom(year, month, 1).value).None? ==> days == []
    ensures StrictlyAscendingDays(days)
    ensures forall k :: 0 <= k < |days| ==> BuiltBy(cal, year, month, days[k])
    ensures cal.dateFrom(year, month, 1).Some? && cal.dayRange(cal.dateFrom(year, month, 1).value).Some? ==>
              var range := cal.dayRange(cal.dateFrom(year, month, 1).value).value;
              && |days| <= (if range.lower <= range.upper then range.upper - range.lower else 0)
              && (forall d :: d in DayNumbers(days) <==> range.lower <= d < range.upper && cal.dateFrom(year, month, d).Some?)
  {
    match cal.dateFrom(year, month, 1)
    case None => []
    case Some(start) =>
      match cal.dayRange(start)
      case None => []
      case Some(range) => DaysFrom(cal, year, month, range.lower, range.upper)
  }

  /** When the calendar can build every day of the range, the loop produces
      exactly one entry per day number, entry `k` for day `day + k`. */
  lemma {:induction false} DaysFromComplete(cal: Calendar, year: int, month: int, day: int, upper: int)
    requires day <= upper
    requires forall d :: day <= d < upper ==> cal.dateFrom(year, month, d).Some?
    ensures |DaysFrom(cal, year, month, day, upper)| == upper - day
    ensures forall k :: 0 <= k < upper - day ==> DaysFrom(cal, year, month, day, upper)[k].day == day + k
    decreases upper - day
  {
    if day < upper {
      DaysFromComplete(cal, year, month, day + 1, upper);
      var rest := DaysFrom(cal, year, month, day + 1, upper);
      var days := DaysFrom(cal, year, month, day, upper);
      assert days == [days[0]] + rest;
    }
  }

  /** A calendar that builds days `1..n` of the month as `y`-`m`-`d` and
      nothing else, with range `1..<n + 1`, yields one entry per day, entry
      `k` for day `k + 1`. */
  lemma FullMonthSkeleton(cal: Calendar, year: int, month: int, y: int, m: int, n: int)
    requires forall d :: 1 <= d <= n ==> cal.dateFrom(year, month, d) == Some(CivilDate(y, m, d))
    requires n >= 1 && cal.dayRange(CivilDate(y, m, 1)) == Some(DayRange(1, n + 1))
    ensures var days := GenerateMonthDays(cal, year, month);
            && |days| == n
            && (forall k :: 0 <= k < |days| ==> days[k].day == k + 1)
            && (forall k :: 0 <= k < |days| ==> days[k].date == CivilDate(y, m, k + 1))
  {
    assert cal.dateFrom(year, month, 1) == Some(CivilDate(y, m, 1));
    FullRangeDays(cal, year, month, y, m, n);
    DatesOfDays(cal, year, month, y, m, n, GenerateMonthDays(cal, year, month));
  }

  /** Entries numbered 1..n and built by such a calendar carry the dates
      `y`-`m`-1 .. `y`-`m`-n. */
  lemma DatesOfDays(cal: Calendar, year: int, month: int, y: int, m: int, n: int, days: seq<DailySchedule>)
    requires forall d :: 1 <= d <= n ==> cal.dateFrom(year, month, d) == Some(CivilDate(y, m, d))
    requires |days| == n
    requires forall k :: 0 <= k < |days| ==> BuiltBy(cal, year, month, days[k]) && days[k].day == k + 1
    ensures forall k :: 0 <= k < |days| ==> days[k].date == CivilDate(y, m, k + 1)
  {
    forall k | 0 <= k < |days| ensures days[k].date == CivilDate(y, m, k + 1) {
      EntryDate(cal, year, month, days[k], y, m, n);
    }
  }

  /** A range `1..<n + 1` of buildable days gives entries numbered 1..n. */
  lemma FullRangeDays(cal: Calendar, year: int, month: int, y: int, m: int, n: int)
    requires forall d :: 1 <= d < n + 1 ==> cal.dateFrom(year, month, d).Some?
    requires cal.dateFrom(year, month, 1) == Some(CivilDate(y, m, 1))
    requires n >= 0 && cal.dayRange(CivilDate(y, m, 1)) == Some(DayRange(1, n + 1))
    ensures |GenerateMonthDays(cal, year, month)| == n
    ensures forall k :: 0 <= k < n ==> GenerateMonthDays(cal, year, month)[k].day == k + 1
  {
    SkeletonIsFullRange(cal, year, month, y, m, n);
    DaysFromComplete(cal, year, month, 1, n + 1);
  }

  /** With the first of the month buildable, the skeleton is the loop over its range. */
  lemma SkeletonIsFullRange(cal: Calendar, year: int, month: int, y: int, m: int, n: int)
    requires cal.dateFrom(year, month, 1) == Some(CivilDate(y, m, 1))
    requires cal.dayRange(CivilDate(y, m, 1)) == Some(DayRange(1, n + 1))
    ensures GenerateMonthDays(cal, year, month) == DaysFrom(cal, year, month, 1, n + 1)
  {
  }

  /** An entry for a day the calendar builds as `y`-`m`-`d` carries that date. */
  lemma EntryDate(cal: Calendar, year: int, month: int, e: DailySchedule, y: int, m: int, n: int)
    requires forall d :: 1 <= d <= n ==> cal.dateFrom(year, month, d) == Some(CivilDate(y, m, d))
    requires BuiltBy(cal, year, month, e) && 1 <= e.day <= n
    ensures e.date == CivilDate(y, m, e.day)
  {
  }

  /** The skeleton of a Gregorian month: exactly as many entries as the
      (normalized) month has days, entry `k` for day `k + 1`, dated in that
      month. */
  lemma GregorianSkeletonDays(year: int, month: int)
    ensures var ym := NormalizedMonth(year, month);
            var days := GenerateMonthDays(Gregorian, year, month);
            && |days| == DaysInMonth(ym.0, ym.1)
            && (forall k :: 0 <= k < |days| ==> days[k].day == k + 1)
            && (forall k :: 0 <= k < |days| ==> days[k].date == CivilDate(ym.0, ym.1, k + 1))
  {
    var ym := NormalizedMonth(year, month);
    var n := DaysInMonth(ym.0, ym.1);
    var cal := Gregorian;
    assert forall d :: 1 <= d <= n ==> cal.dateFrom(year, month, d) == Some(CivilDate(ym.0, ym.1, d));
    assert cal.dayRange(CivilDate(ym.0, ym.1, 1)) == Some(DayRange(1, n + 1)) by {
      assert NormalizedMonth(ym.0, ym.1) == ym;
    }
    FullMonthSkeleton(cal, year, month, ym.0, ym.1, n);
  }

  /** Weekdays of a Gregorian skeleton are numbered 1..7, match the
      calendar's weekday of each entry's date, and advance by one from each
      day to the next, wrapping from Saturday (7) to Sunday (1). */
  lemma GregorianSkeletonWeekdays(year: int, month: int)
    ensures var days := GenerateMonthDays(Gregorian, year, month);
            && (forall k :: 0 <= k < |days| ==> 1 <= days[k].weekday <= 7)
            && (forall k :: 0 <= k < |days| ==> days[k].weekday == WeekdayOf(days[k].date))
            && (forall k :: 0 < k < |days| ==> days[k].weekday == days[k - 1].weekday % 7 + 1)
  {
    var ym := NormalizedMonth(year, month);
    var days := GenerateMonthDays(Gregorian, year, month);
    GregorianSkeletonDays(year, month);
    forall k | 0 <= k < |days| ensures days[k].weekday == WeekdayOf(days[k].date) {
      GregorianEntry(days[k], year, month);
    }
    forall k | 0 < k < |days|
      ensures days[k].weekday == days[k - 1].weekday % 7 + 1
    {
      NextDayNextWeekday(ym.0, ym.1, k);
    }
  }

  /** An entry built with the Gregorian calendar carries that calendar's
      weekday and "dd EEE" string of its date. */
  lemma GregorianEntry(e: DailySchedule, year: int, month: int)
    requires BuiltBy(Gregorian, year, month, e)
    ensures e.weekday == WeekdayOf(e.date) && e.dateString == FormatDayAndWeekday(e.date)
  {
    var cal := Gregorian;
    assert e.weekday == cal.weekdayOf(e.date) && e.dateString == cal.format(e.date);
  }
}

=== FILE: roster_examples.dfy ===
/** Worked transcripts: what the parser makes of a few short inputs, on any
    day array whose days are fresh. */
module RosterExamples {
  import opened Wrappers
  import opened Text
  import opened Duty
  import opened FlightLegs
  import opened Schedule
  import opened LineClassifier
  import opened Builder
  import opened GapFilling

  /** A date marker line "dd Www" with no tail reads as the marker of day dd. */
  lemma ReadMarker(s: string, dd: string, name: string, day: int)
    requires |dd| == 2 && IsDigit(dd[0]) && IsDigit(dd[1]) && TwoDigitValue(dd) == day
    requires name in WeekdayAbbreviations
    requires s == dd + (" " + (name + ""))
    ensures Read(s) == ReadLine(s, DateMarker(day))
  {
    TrimUntouched(s);
    DateLineClassified(s, dd, " ", name, "");
  }

  /** A flight line with single spaces and no tail reads as its leg. */
  lemma ReadLeg(s: string, leg: FlightLeg)
    requires WellFormed(leg)
    requires s == FlightText(leg, " ", " ", " ", " ", "")
    ensures Read(s) == ReadLine(s, Leg(leg))
  {
    assert IsSpaces(" ");
    assert !StartsWith("", "+1");
    TrimUntouched(s);
    FlightLineClassified(s, leg, " ", " ", " ", " ", "");
  }

  const SameDayLeg := FlightLeg("BR18", "TPE", "OKA", "0900", "1100", false)
  const OvernightLeg := FlightLeg("BR51", "TPE", "LAX", "2300", "0600", true)

  /** The two legs are well formed and print as their lines. */
  lemma SameDayLegWellFormed()
    ensures WellFormed(SameDayLeg)
  {
    assert All("BR18", IsCodeChar);
    assert All("TPE", IsUpper) && All("OKA", IsUpper);
    assert All("0900", IsDigit) && All("1100", IsDigit);
  }

  lemma SameDayLegText()
    ensures FlightText(SameDayLeg, " ", " ", " ", " ", "") == "BR18 0900 TPE OKA 1100"
  {
  }

  lemma OvernightLegWellFormed()
    ensures WellFormed(OvernightLeg)
  {
    assert All("BR51", IsCodeChar);
    assert All("TPE", IsUpper) && All("LAX", IsUpper);
    assert All("2300", IsDigit) && All("0600", IsDigit);
  }

  lemma OvernightLegText()
    ensures FlightText(OvernightLeg, " ", " ", " ", " ", "") == "BR51 2300 TPE LAX 0600+1"
  {
    assert ArrivalSuffix(OvernightLeg, "") == "+1";
  }

  lemma ReadSameDayLeg(s: string)
    requires s == "BR18 0900 TPE OKA 1100"
    ensures Read(s) == ReadLine(s, Leg(SameDayLeg))
  {
    SameDayLegWellFormed();
    SameDayLegText();
    ReadLeg(s, SameDayLeg);
  }

  lemma ReadOvernightLeg(s: string)
    requires s == "BR51 2300 TPE LAX 0600+1"
    ensures Read(s) == ReadLine(s, Leg(OvernightLeg))
  {
    OvernightLegWellFormed();
    OvernightLegText();
    ReadLeg(s, OvernightLeg);
  }

  /** Two read lines folded from a fresh cursor: the marker's day receives
      the second line. */
  lemma RunMarkerThen(days: seq<DailySchedule>, d: int, line: ReadLine)
    requires 1 <= d <= |days| && !IsMarker(line)
    ensures Run(days, [ReadLine("", DateMarker(d)), line]) ==
              State(days[d - 1 := ApplyLine(days[d - 1], line)], Some(d - 1))
  {
    var lines := [ReadLine("", DateMarker(d)), line];
    assert lines[..1] == [lines[0]];
    assert lines[..1][..0] == [];
    assert Run(days, lines[..1][..0]) == State(days, None);
    assert Run(days, lines[..1]) == State(days, Some(d - 1));
  }

  /** The fold only looks at a marker's day, not its text. */
  lemma MarkerTextIrrelevant(days: seq<DailySchedule>, t: string, d: int, line: ReadLine)
    ensures Run(days, [ReadLine(t, DateMarker(d)), line]) == Run(days, [ReadLine("", DateMarker(d)), line])
  {
    var a := [ReadLine(t, DateMarker(d)), line];
    var b := [ReadLine("", DateMarker(d)), line];
    assert a[..1] == [a[0]] && b[..1] == [b[0]];
    assert a[..1][..0] == [] && b[..1][..0] == [];
    assert Run(days, a[..1][..0]) == Run(days, b[..1][..0]);
    assert Run(days, a[..1]) == Run(days, b[..1]);
  }

  lemma ReadFifthMonday()
    ensures Read("05 Mon") == ReadLine("05 Mon", DateMarker(5))
  {
    ReadMarker("05 Mon", "05", "Mon", 5);
  }

  lemma ReadTenthFriday()
    ensures Read("10 Fri") == ReadLine("10 Fri", DateMarker(10))
  {
    ReadMarker("10 Fri", "10", "Fri", 10);
  }

  lemma ReadSixthTuesday()
    ensures Read("06 Tue") == ReadLine("06 Tue", DateMarker(6))
  {
    ReadMarker("06 Tue", "06", "Tue", 6);
  }

  lemma ReadTurnaroundTranscript()
    ensures ReadAll(["05 Mon", "BR18 0900 TPE OKA 1100"]) ==
              [ReadLine("05 Mon", DateMarker(5)), ReadLine("BR18 0900 TPE OKA 1100", Leg(SameDayLeg))]
  {
    ReadPair("05 Mon", "BR18 0900 TPE OKA 1100");
    ReadFifthMonday();
    ReadSameDayLeg("BR18 0900 TPE OKA 1100");
  }

  lemma ReadDayOffTranscript()
    ensures ReadAll(["10 Fri", "OFF"]) == [ReadLine("10 Fri", DateMarker(10)), ReadLine("OFF", Keywords(true, false))]
  {
    ReadPair("10 Fri", "OFF");
    ReadTenthFriday();
    ReadOff();
  }

  lemma ReadOvernightTranscript()
    ensures ReadAll(["06 Tue", "BR51 2300 TPE LAX 0600+1"]) ==
              [ReadLine("06 Tue", DateMarker(6)), ReadLine("BR51 2300 TPE LAX 0600+1", Leg(OvernightLeg))]
  {
    ReadPair("06 Tue", "BR51 2300 TPE LAX 0600+1");
    ReadSixthTuesday();
    ReadOvernightLeg("BR51 2300 TPE LAX 0600+1");
  }

  /** "05 Mon" then a same-day flight, and no trip on day 6: after gap
      filling, day 5 is a turnaround, not a trip start, with that one leg
      and its flight number. */
  lemma TurnaroundExample(days: seq<DailySchedule>, result: seq<DailySchedule>)
    requires |days| >= 5 && IsFresh(days[4]) && (|days| > 5 ==> IsFresh(days[5]))
    requires FillGapsSpec(Run(days, ReadAll(["05 Mon", "BR18 0900 TPE OKA 1100"])).days, result)
    ensures && result[4].duty == Turnaround && !result[4].isTripStart
            && result[4].flightNumber == Some("BR18")
            && result[4].legs == [FlightLeg("BR18", "TPE", "OKA", "0900", "1100", false)]
  {
    ReadTurnaroundTranscript();
    var leg := ReadLine("BR18 0900 TPE OKA 1100", Leg(SameDayLeg));
    MarkerTextIrrelevant(days, "05 Mon", 5, leg);
    RunMarkerThen(days, 5, leg);
    var parsed := Run(days, [ReadLine("05 Mon", DateMarker(5)), leg]).days;
    assert parsed[4].duty == Turnaround;
    if |days| > 5 {
      assert parsed[5] == days[5];
    }
    assert SettledAt(parsed, result, 4);
  }

  /** "10 Fri" then "OFF": after gap filling, day 10 is a day off annotated
      "OFF" with no legs. */
  lemma DayOffExample(days: seq<DailySchedule>, result: seq<DailySchedule>)
    requires |days| >= 10 && IsFresh(days[9])
    requires FillGapsSpec(Run(days, ReadAll(["10 Fri", "OFF"])).days, result)
    ensures result[9].duty == DayOff && result[9].metaInfo == Some("OFF") && result[9].legs == []
  {
    ReadDayOffTranscript();
    var off := ReadLine("OFF", Keywords(true, false));
    MarkerTextIrrelevant(days, "10 Fri", 10, off);
    RunMarkerThen(days, 10, off);
    var parsed := Run(days, [ReadLine("10 Fri", DateMarker(10)), off]).days;
    assert parsed[9].duty == DayOff;
    assert SettledAt(parsed, result, 9);
  }

  /** "06 Tue" then an overnight flight, and nothing for day 7: day 6 is a
      multi-day trip that the gap filler does not mark as a trip start, and
      day 7 becomes a continuing layover with flight number "BR51" whose
      trip-end flag stays unset. */
  lemma OvernightExample(days: seq<DailySchedule>, result: seq<DailySchedule>)
    requires |days| >= 7 && IsFresh(days[5]) && IsFresh(days[6])
    requires FillGapsSpec(Run(days, ReadAll(["06 Tue", "BR51 2300 TPE LAX 0600+1"])).days, result)
    ensures result[5].duty == MultiDayTrip && !result[5].isTripStart
    ensures result[5].legs == [FlightLeg("BR51", "TPE", "LAX", "2300", "0600", true)]
    ensures && result[6].duty == Layover && result[6].isContinuing
            && result[6].flightNumber == Some("BR51") && !result[6].isTripEnd
            && result[6].legs == []
  {
    ReadOvernightTranscript();
    var leg := ReadLine("BR51 2300 TPE LAX 0600+1", Leg(OvernightLeg));
    MarkerTextIrrelevant(days, "06 Tue", 6, leg);
    RunMarkerThen(days, 6, leg);
    var parsed := Run(days, [ReadLine("06 Tue", DateMarker(6)), leg]).days;
    assert parsed[5].duty == MultiDayTrip;
    assert parsed[6] == days[6];
    assert SettledAt(parsed, result, 5);
    assert SettledAt(parsed, result, 6);
  }
}

=== FILE: schedule.dfy ===
/** The per-day record of the roster (`DailySchedule`). */
module Schedule {
  import opened Wrappers
  import opened Calendars
  import opened Duty
  import opened FlightLegs

  /** One calendar day. `date`, `day`, `weekday` and `dateString` are fixed
      when the day is created; the duty type, flight number, legs,
      annotation and the three independent trip flags are the parts the
      parser and the gap filler change. */
  datatype DailySchedule = DailySchedule(
    date: CivilDate,
    day: int,
    weekday: int,
    dateString: string,
    duty: DutyType,
    flightNumber: Option<string>,
    legs: seq<FlightLeg>,
    metaInfo: Option<string>,
    isTripStart: bool,
    isTripEnd: bool,
    isContinuing: bool)
  {
    /** `Identifiable` conformance: a day is identified by its date string. */
    function Id(): string { dateString }
  }

  /** A day as the memberwise initializer leaves it when only the fixed
      fields are given: unknown duty, nothing recorded, no flag set. */
  predicate IsFresh(d: DailySchedule) {
    && d.duty == Unknown
    && d.flightNumber == None
    && d.legs == []
    && d.metaInfo == None
    && !d.isTripStart && !d.isTripEnd && !d.isContinuing
  }

  /** The memberwise initializer called with the fixed fields and `.unknown`. */
  function NewDay(date: CivilDate, day: int, weekday: int, dateString: string): (d: DailySchedule)
    ensures IsFresh(d)
    ensures d.date == date && d.day == day && d.weekday == weekday && d.dateString == dateString
  {
    DailySchedule(date, day, weekday, dateString, Unknown, None, [], None, false, false, false)
  }

  /** Two days agree on every field that cannot change after creation. */
  predicate SameFrame(a: DailySchedule, b: DailySchedule) {
    a.date == b.date && a.day == b.day && a.weekday == b.weekday && a.dateString == b.dateString
  }

  /** Two day arrays of the same length agree day by day on their fixed fields. */
  predicate SameFrames(xs: seq<DailySchedule>, ys: seq<DailySchedule>) {
    |xs| == |ys| && forall i :: 0 <= i < |xs| ==> SameFrame(xs[i], ys[i])
  }

  lemma SameFramesTransitive(xs: seq<DailySchedule>, ys: seq<DailySchedule>, zs: seq<DailySchedule>)
    requires SameFrames(xs, ys) && SameFrames(ys, zs)
    ensures SameFrames(xs, zs)
  {
  }
}

=== FILE: text.dfy ===
/** Character classes and string helpers shared by the line classifier:
    trimming (Foundation's `trimmingCharacters(in: .whitespaces)`), splitting
    on newlines (`components(separatedBy: "\n")`) and substring search
    (`String.contains`). Only the ASCII part of each character class is
    modelled. */
module Text {

  /** The ASCII members of Foundation's `.whitespaces` set: space and tab. */
  predicate IsBlank(c: char) { c == ' ' || c == '\t' }

  /** The ASCII characters the regex class `\s` matches. */
  predicate IsRegexSpace(c: char) {
    c == ' ' || c == '\t' || c == '\n' || c == '\r' || c == '\U{0B}' || c == '\U{0C}'
  }

  /** The regex class `\d`, restricted to ASCII. */
  predicate IsDigit(c: char) { '0' <= c <= '9' }

  /** The regex class `[A-Z]`. */
  predicate IsUpper(c: char) { 'A' <= c <= 'Z' }

  /** The regex class `[A-Z0-9]`. */
  predicate IsCodeChar(c: char) { IsUpper(c) || IsDigit(c) }

  function DigitValue(c: char): (n: nat)
    requires IsDigit(c)
    ensures n < 10
  {
    (c as int) - ('0' as int)
  }

  function DigitChar(n: nat): (c: char)
    requires n < 10
    ensures IsDigit(c) && DigitValue(c) == n
  {
    (('0' as int) + n) as char
  }

  predicate All(s: string, p: char -> bool) {
    forall k :: 0 <= k < |s| ==> p(s[k])
  }

  /** A nonempty run of `\s` characters, what the regex `\s+` consumes. */
  predicate IsSpaces(w: string) {
    |w| > 0 && All(w, IsRegexSpace)
  }

  predicate StartsWith(s: string, prefix: string) {
    |prefix| <= |s| && s[..|prefix|] == prefix
  }

  /** The end of the longest run of characters satisfying `p` that starts at `i`. */
  function Span(s: string, i: nat, p: char -> bool): (j: nat)
    requires i <= |s|
    ensures i <= j <= |s|
    ensures forall k :: i <= k < j ==> p(s[k])
    ensures j < |s| ==> !p(s[j])
    decreases |s| - i
  {
    if i < |s| && p(s[i]) then Span(s, i + 1, p) else i
  }

  /** A run that ends where `p` first fails is the run `Span` finds. */
  lemma SpanIs(s: string, i: nat, p: char -> bool, j: nat)
    requires i <= j <= |s|
    requires forall k :: i <= k < j ==> p(s[k])
    requires j < |s| ==> !p(s[j])
    ensures Span(s, i, p) == j
  {
  }

  // ---------------------------------------------------------------------
  // Trimming

  /** Number of leading blanks. */
  function LeadingBlanks(s: string): (i: nat)
    ensures i <= |s|
    ensures forall k :: 0 <= k < i ==> IsBlank(s[k])
    ensures i < |s| ==> !IsBlank(s[i])
  {
    Span(s, 0, IsBlank)
  }

  /** Index just past the last non-blank character (0 when there is none). */
  function TrailingEnd(s: string): (j: nat)
    ensures j <= |s|
    ensures forall k :: j <= k < |s| ==> IsBlank(s[k])
    ensures j > 0 ==> !IsBlank(s[j - 1])
    decreases |s|
  {
    if |s| > 0 && IsBlank(s[|s| - 1]) then TrailingEnd(s[..|s| - 1]) else |s|
  }

  /** `s` with its leading and trailing blanks removed: `s` is the result
      framed by two all-blank runs, and the result neither starts nor ends
      with a blank. */
  function Trim(s: string): (t: string)
    ensures |t| <= |s|
    ensures LeadingBlanks(s) + |t| <= |s|
    ensures t == s[LeadingBlanks(s)..LeadingBlanks(s) + |t|]
    ensures All(s[..LeadingBlanks(s)], IsBlank)
    ensures All(s[LeadingBlanks(s) + |t|..], IsBlank)
    ensures |t| > 0 ==> !IsBlank(t[0]) && !IsBlank(t[|t| - 1])
  {
    var i := LeadingBlanks(s);
    var j := TrailingEnd(s);
    if j <= i then [] else s[i..j]
  }

  /** Trimming a string that has no blank at either end leaves it unchanged. */
  lemma TrimUntouched(s: string)
    requires |s| > 0 ==> !IsBlank(s[0]) && !IsBlank(s[|s| - 1])
    ensures Trim(s) == s
  {
  }

  lemma TrimIdempotent(s: string)
    ensures Trim(Trim(s)) == Trim(s)
  {
    TrimUntouched(Trim(s));
  }

  /** An end index with only blanks after it and a non-blank (or nothing)
      before it is the one `TrailingEnd` finds. */
  lemma TrailingEndIs(s: string, j: nat)
    requires j <= |s|
    requires forall k :: j <= k < |s| ==> IsBlank(s[k])
    requires j > 0 ==> !IsBlank(s[j - 1])
    ensures TrailingEnd(s) == j
  {
  }

  /** A string framed by two blank runs trims to what they frame, when that
      has no blank at either end. */
  lemma {:induction false} TrimFramed(a: string, t: string, b: string)
    requires All(a, IsBlank) && All(b, IsBlank)
    requires |t| > 0 ==> !IsBlank(t[0]) && !IsBlank(t[|t| - 1])
    ensures Trim(a + t + b) == t
  {
    var s := a + t + b;
    if |t| > 0 {
      assert s[|a|] == t[0] && s[|a| + |t| - 1] == t[|t| - 1];
      SpanIs(s, 0, IsBlank, |a|);
      TrailingEndIs(s, |a| + |t|);
      assert s[|a|..|a| + |t|] == t;
    } else {
      assert s == a + b;
      TrailingEndIs(s, 0);
    }
  }

  /** Blanks added around a string never change what it trims to. */
  lemma {:induction false} TrimIgnoresPadding(pre: string, s: string, post: string)
    requires All(pre, IsBlank) && All(post, IsBlank)
    ensures Trim(pre + s + post) == Trim(s)
  {
    var i := LeadingBlanks(s);
    var t := Trim(s);
    var a, b := s[..i], s[i + |t|..];
    ThreeParts(s, i, i + |t|);
    Regroup(pre, a, t, b, post);
    AllConcat(pre, a, IsBlank);
    AllConcat(b, post, IsBlank);
    TrimFramed(pre + a, t, b + post);
  }

  lemma ThreeParts<T>(s: seq<T>, i: nat, j: nat)
    requires i <= j <= |s|
    ensures s == s[..i] + s[i..j] + s[j..]
  {
  }

  lemma Regroup<T>(p: seq<T>, a: seq<T>, t: seq<T>, b: seq<T>, q: seq<T>)
    ensures p + (a + t + b) + q == (p + a) + t + (b + q)
  {
  }

  lemma AllConcat(x: string, y: string, p: char -> bool)
    requires All(x, p) && All(y, p)
    ensures All(x + y, p)
  {
    forall k | 0 <= k < |x + y|
      ensures p((x + y)[k])
    {
      if k >= |x| {
        assert (x + y)[k] == y[k - |x|];
      }
    }
  }

  // ---------------------------------------------------------------------
  // Splitting on newlines

  /** Glues pieces back together with "\n" between neighbours. */
  function Join(parts: seq<string>): string
    requires |parts| >= 1
    decreases |parts|
  {
    if |parts| == 1 then parts[0] else parts[0] + "\n" + Join(parts[1..])
  }

  predicate NoNewline(s: string) { forall k :: 0 <= k < |s| ==> s[k] != '\n' }

  /** `components(separatedBy: "\n")`: one piece per newline plus one, none
      containing a newline, and joining them gives back the input. */
  function Split(s: string): (parts: seq<string>)
    ensures |parts| >= 1
    ensures forall n :: 0 <= n < |parts| ==> NoNewline(parts[n])
    ensures Join(parts) == s
    decreases |s|
  {
    var k := Span(s, 0, c => c != '\n');
    if k == |s| then [s]
    else
      var rest := Split(s[k + 1..]);
      assert s == s[..k] + "\n" + s[k + 1..];
      [s[..k]] + rest
  }

  /** The other half of the round trip: pieces without newlines are recovered
      by splitting their join. */
  lemma {:induction false} SplitJoin(parts: seq<string>)
    requires |parts| >= 1
    requires forall n :: 0 <= n < |parts| ==> NoNewline(parts[n])
    ensures Split(Join(parts)) == parts
    decreases |parts|
  {
    var p := parts[0];
    if |parts| == 1 {
      SpanIs(p, 0, c => c != '\n', |p|);
    } else {
      var s := Join(parts);
      var rest := Join(parts[1..]);
      assert s == p + "\n" + rest;
      SpanIs(s, 0, c => c != '\n', |p|);
      assert s[|p| + 1..] == rest;
      assert s[..|p|] == p;
      SplitJoin(parts[1..]);
      assert parts == [p] + parts[1..];
    }
  }

  // ---------------------------------------------------------------------
  // Substring search

  /** `needle` occurs in `s` starting at index `i`. */
  predicate OccursAt(s: string, needle: string, i: int) {
    0 <= i && i + |needle| <= |s| && s[i..i + |needle|] == needle
  }

  /** Swift's `String.contains(_:)` with a string argument. */
  function Contains(s: string, needle: string): (b: bool)
    ensures b <==> exists i :: OccursAt(s, needle, i)
    decreases |s|
  {
    if |s| < |needle| then
      assert forall i :: !OccursAt(s, needle, i);
      false
    else if s[..|needle|] == needle then
      assert OccursAt(s, needle, 0);
      true
    else
      var b := Contains(s[1..], needle);
      assert forall i :: OccursAt(s[1..], needle, i) ==> OccursAt(s, needle, i + 1);
      assert forall i :: OccursAt(s, needle, i) && i > 0 ==> OccursAt(s[1..], needle, i - 1);
      b
  }

  /** A needle whose first character does not occur in `s` is not contained in it. */
  lemma AbsentFirstChar(s: string, needle: string)
    requires |needle| > 0 && forall i :: 0 <= i < |s| ==> s[i] != needle[0]
    ensures !Contains(s, needle)
  {
    forall i ensures !OccursAt(s, needle, i) {
      if 0 <= i && i + |needle| <= |s| {
        assert s[i..i + |needle|][0] == s[i];
      }
    }
  }

  /** Some keyword of the list occurs in `s`. */
  predicate ContainsAny(s: string, words: seq<string>) {
    exists n :: 0 <= n < |words| && Contains(s, words[n])
  }
}

=== FILE: wrappers.dfy ===
/** Failure-carrying values used throughout the model: `Option` stands for a
    Swift optional, `Result` for an operation that may trap at run time. */
module Wrappers {

  datatype Option<+T> = None | Some(value: T)

  datatype Result<+T, +E> = Ok(value: T) | Err(error: E)
}
